=== FILE: README.md ===
# Dmarket admin workflow in Dafny

This project models the administrative order, return, refund and mileage workflow of the
Dmarket back office (`AdminService`). It also models the order-line repository queries that
workflow relies on, and the notification record it produces. The database is an immutable
`Store` value:

- one map per table, for order lines, orders, product names, returns, users, mileage requests,
  product questions and their replies, inquiries and their replies, and product options;
- append-only sequences for refund rows, mileage history and published notification events.

Every service method is a pure function `Store -> Result<Store, Error>`. A method either
returns the new store or fails with the exception the Java code throws. On failure the model
leaves the store unchanged, outbox included. This is an assumption. For the tables it rests on
`@Transactional` rolling back on a runtime exception. For the outbox it also assumes that an
event published before the failure is dropped with the rollback. That matters in `putRefund`:
it publishes the "return" event inside `updateReturnState` (AdminService.java:614) before the
user lookup whose null result fails the call (AdminService.java:859). Whether that notification
survives depends on the event listener, which is not part of this model.

Modules:

- `Wrappers`: `Option`, and a `Result` that works with `:-`.
- `JavaInt`: 32-bit `int` wrap-around and truncating division.
- `DecimalFormat`: how amounts appear in notification texts. This is plain concatenation,
  or `DecimalFormat("###,###")` grouping.
- `Constants`: the state enumerations, the Korean label switches, and the error codes.
- `Entities`: one datatype per record.
- `Store`: the store itself, id generation, and ownership lookups.
- `OrderDetailRepository`: the JPQL statements, as map operations.
- `Notifications`: `Notification.create` and `updateIsRead`.
- `Ledger`: crediting a balance with a history entry, and the consistency between the two.
- `AdminService`: the service methods.
- `Workflow`: all commands as one step relation, with the invariants every step keeps.
- `SourceGaps`: lemmas that exhibit the checks the code does not make.
- `Scenarios`: concrete runs.

The model follows the code, not the hardened behaviour one might expect. The code has:

- no duplicate-refund guard;
- no check that a mileage request is still being processed;
- no transition graph for order lines;
- no check that a return was collected before it is refunded;
- no range check on the refund percentage.

Each gap is a lemma in `SourceGaps`; no guard was added. A missing order line is an
`IllegalArgumentException` in the code (`IllegalArgument(DetailNotFound)` here), not a
not-found error. Labels are the Korean strings the code switches on.

## Model

| member | source | states |
|---|---|---|
| Constants.OrderDetailLabel | src/main/java/com/dmarket/service/AdminService.java:699-724 | a label is accepted exactly when it is one of the seven fulfilment labels |
| Constants.OrderDetailLabelsAreABijection | src/main/java/com/dmarket/service/AdminService.java:699-724 | there are exactly seven labels, each maps to a distinct state, and every state has a label (round trip both ways) |
| Constants.ReturnLabel | src/main/java/com/dmarket/service/AdminService.java:595-599 | `fromLabel` accepts exactly the four return labels; "수거 완료" is COLLECT_COMPLETE and "환불 완료" is REFUND_COMPLETE |
| Constants.ReturnListLabel | src/main/java/com/dmarket/service/AdminService.java:564-578 | it succeeds iff the label is "반품 요청", "수거중" or "수거 완료", selecting RETURN_REQUEST, COLLECT_ING and COLLECT_COMPLETE respectively; any other label fails with STATE_NOT_FOUND |
| Constants.ReturnListLabelAgreesWithFromLabel | src/main/java/com/dmarket/service/AdminService.java:566-578 | the listing switch accepts a label iff `fromLabel` does and it is not "환불 완료", and then agrees with `fromLabel` |
| AdminService.PageValidation | src/main/java/com/dmarket/service/AdminService.java:914-917 | positive pages become 0-based; zero and negatives pass through; the result is non-negative iff the input is |
| AdminService.PageValidationReachesEveryPage | src/main/java/com/dmarket/service/AdminService.java:914-917 | page n+1 reaches 0-based page n, and pages 0 and 1 both reach page 0 |
| AdminService.GetMileageRequests | src/main/java/com/dmarket/service/AdminService.java:156-169 | a negative page fails with IllegalArgument before the status is looked at; otherwise only "PROCESSING" and "PROCESSED" are accepted, others fail with INVALID_STATE_PARAM; the listed ids are exactly the requests in / not in PROCESSING |
| AdminService.MileageListingsPartition | src/main/java/com/dmarket/service/AdminService.java:161-167 | for any non-negative page, the two listings are disjoint and together cover every request |
| AdminService.GetReturns | src/main/java/com/dmarket/service/AdminService.java:561-585 | a negative page fails with IllegalArgument before the label is looked at; otherwise an unknown label fails with STATE_NOT_FOUND, and a known one lists exactly the returns in the label's state |
| AdminService.RefundedReturnsAreNeverListed | src/main/java/com/dmarket/service/AdminService.java:566-578 | no label lists a refunded return |
| AdminService.AdminCount | src/main/java/com/dmarket/service/AdminService.java:814-816 | the loop's count equals the reference count of users holding the role, between 0 and the list size |
| AdminService.RoleCountsAddUp | src/main/java/com/dmarket/service/AdminService.java:796-810 | the per-role counts add up to the number of users |
| AdminService.UpdateOrderDetailState | src/main/java/com/dmarket/service/AdminService.java:698-743 | a bad label fails with STATE_NOT_FOUND before any lookup; it succeeds iff the label is valid, the line exists, and its order exists (the order's user id is not looked up in the users table); it then overwrites that line's state whatever it was, changes only that line and the outbox, and appends one "delivery" event to the owner |
| AdminService.UpdateReturnState | src/main/java/com/dmarket/service/AdminService.java:589-618 | an unknown return fails with RETURN_NOT_FOUND; on success the return takes the label's state, "수거 완료" appends a pending refund on every call, and one "return" event goes to the owner; nothing else changes |
| AdminService.RefundAmount | src/main/java/com/dmarket/service/AdminService.java:850-851 | the amount always fits in a Java `int` |
| AdminService.RefundAmountIsFloorOfPercentage | src/main/java/com/dmarket/service/AdminService.java:850-851 | without overflow the amount is floor(price*percent/100), non-negative, and at most the price when percent <= 100 |
| AdminService.CompleteRefunds | src/main/java/com/dmarket/service/AdminService.java:854 | every refund row of the return becomes completed, every other row and the row count are unchanged |
| AdminService.PutRefund | src/main/java/com/dmarket/service/AdminService.java:847-865 | a missing price fails; it succeeds iff the return's owner exists. Effects: the line becomes RETURN_COMPLETE, the return REFUND_COMPLETE, its refund rows are completed, the owner is credited the amount with one REFUND entry holding the new balance, no other return changes, and exactly one "return" event with the "환불 완료" state text and the order-info url is published |
| AdminService.ApproveMileageReq | src/main/java/com/dmarket/service/AdminService.java:173-206 | an unknown id fails with REQUEST_NOT_FOUND; a known request is resolved whatever its current state: approval sets APPROVAL and credits the amount with one CHARGE entry; refusal sets REFUSAL and leaves balances and history alone; one "mileage" event either way |
| AdminService.CreateQnaReply | src/main/java/com/dmarket/service/AdminService.java:508-531 | a missing question fails with QNA_NOT_FOUND and an answered one with a Conflict ALREADY_SAVED_REPLY; otherwise the reply is saved under a fresh id and the flag is set |
| AdminService.DeleteQnaReply | src/main/java/com/dmarket/service/AdminService.java:535-555 | a missing reply fails with REPLY_NOT_FOUND; otherwise the reply is removed and the question's flag cleared |
| AdminService.CreateInquiryReply | src/main/java/com/dmarket/service/AdminService.java:654-675 | a missing or already answered inquiry is rejected; otherwise the flag is set, the reply saved and an "inquiry" event published |
| AdminService.DeleteInquiryReply | src/main/java/com/dmarket/service/AdminService.java:684-694 | a missing reply fails with REPLY_NOT_FOUND; otherwise the flag is cleared and the reply removed |
| AdminService.AddProductStock | src/main/java/com/dmarket/service/AdminService.java:438-461 | null fields, a count <= 0 or an unknown option fail, always wrapped as a runtime exception; otherwise only that option's quantity changes, by an `int` addition |
| AdminService.AddProductStockAddsExactly | src/main/java/com/dmarket/service/AdminService.java:453 | below the `int` limit the quantity grows by exactly the count |
| OrderDetailRepository.UpdateOrderDetailState | src/main/java/com/dmarket/repository/order/OrderDetailRepository.java:45-47 | only the row with the given id takes the new state; other rows and fields are unchanged |
| OrderDetailRepository.UpdateOrderDetailStateSelectsById | src/main/java/com/dmarket/repository/order/OrderDetailRepository.java:45-47 | equals the generic UPDATE ... WHERE id = :id |
| OrderDetailRepository.UpdateReturnCompleteByReturnId | src/main/java/com/dmarket/repository/order/OrderDetailRepository.java:49-52 | only the line the return references changes; with no such return, no row changes |
| OrderDetailRepository.UpdateReturnCompleteSelectsTheReturnedLine | src/main/java/com/dmarket/repository/order/OrderDetailRepository.java:49-52 | equals the generic UPDATE ... WHERE id IN (the return's line) |
| OrderDetailRepository.SalePriceByReturnId | src/main/java/com/dmarket/repository/order/OrderDetailRepository.java:54-57 | present iff the return and its line exist, and then the line's sale price |
| OrderDetailRepository.CountByUserAndState | src/main/java/com/dmarket/repository/order/OrderDetailRepository.java:70-78 | null iff no line of the (existing) user is in the state; otherwise the number of such lines |
| OrderDetailRepository.SafeCount | src/main/java/com/dmarket/repository/order/OrderDetailRepository.java:111-115 | the number of matching lines, zero exactly when the raw count is null |
| OrderDetailRepository.UpdateRaisesCountByOne | src/main/java/com/dmarket/repository/order/OrderDetailRepository.java:71-78 | moving one of the user's lines into a state raises that user's count for it by exactly one |
| Notifications.Create | src/main/java/com/dmarket/notification/Notification.java:28-36 | receiver, content and url are copied from the event; the record is unread, has no id yet, and its time has zero nanoseconds |
| Notifications.UpdateIsRead | src/main/java/com/dmarket/notification/Notification.java:38-40 | sets the read flag and leaves id, receiver, content, url and creation time unchanged |
| Notifications.UpdateIsReadOverwrites | src/main/java/com/dmarket/notification/Notification.java:38-40 | only the last flag written counts; writing the current flag is a no-op |
| Notifications.DeliveredAreUnread | src/main/java/com/dmarket/notification/Notification.java:28-33 | every record created from published events is unread and addressed to its event's receiver |
| DecimalFormat.ValueOfDigits | src/main/java/com/dmarket/service/AdminService.java:197 | the plain rendering of an amount reads back as the amount |
| DecimalFormat.GroupingOnlyAddsCommas | src/main/java/com/dmarket/service/AdminService.java:181-182 | removing the commas from the grouped rendering gives the plain rendering |
| DecimalFormat.TenThousandIsGrouped | src/main/java/com/dmarket/service/AdminService.java:181-182 | 10000 is rendered "10,000" grouped and "10000" plain |
| Ledger.Credit | src/main/java/com/dmarket/service/AdminService.java:855-864 | only the user's balance rises, by the amount, and one entry with the new balance is appended |
| Ledger.CreditKeepsConsistent | src/main/java/com/dmarket/service/AdminService.java:855-864 | after a credit, each cached balance still equals its user's latest entry, and each entry is the previous balance plus its change |
| Ledger.CreditMovesBalance | src/main/java/com/dmarket/service/AdminService.java:176-191 | a credit moves each balance by exactly the changes appended for that user |
| Ledger.BalanceMovesComposes | src/main/java/com/dmarket/service/AdminService.java:855-864 | "balance moved by the appended changes" composes over consecutive steps |
| Store.FreshKey | src/main/java/com/dmarket/service/AdminService.java:516-520 | a saved reply gets an id no existing reply has |
| Store.CountRefundsAppend | src/main/java/com/dmarket/service/AdminService.java:595-598 | saving a refund row raises that return's refund count by one and no other return's |
| Workflow.StepKeepsLedgerConsistent | src/main/java/com/dmarket/service/AdminService.java:847-865 | no command breaks the agreement between cached balances and mileage history |
| Workflow.RunKeepsLedgerConsistent | src/main/java/com/dmarket/service/AdminService.java:847-865 | the agreement holds after any sequence of commands |
| Workflow.StepMovesBalanceByHistory | src/main/java/com/dmarket/service/AdminService.java:173-200 | every command moves each balance by exactly the history it appends |
| Workflow.RunMovesBalanceByHistory | src/main/java/com/dmarket/service/AdminService.java:173-200 | the same over any sequence of commands |
| Workflow.StepIsAppendOnly | src/main/java/com/dmarket/service/AdminService.java:852-864 | history and events are only appended; refund rows are only added and never reopened |
| Workflow.OnlyCollectionCreatesRefunds | src/main/java/com/dmarket/service/AdminService.java:594-598 | a command adds a refund row for a return iff it sets that return to "수거 완료", and then exactly one |
| Workflow.OnlyAReplyAnswersAQuestion | src/main/java/com/dmarket/service/AdminService.java:512-523 | an unanswered question becomes answered only by a reply to it |
| Workflow.OnlyAReplyAnswersAnInquiry | src/main/java/com/dmarket/service/AdminService.java:661-665 | an unanswered inquiry becomes answered only by a reply to it |
| SourceGaps.CollectingTwiceCreatesTwoRefunds | src/main/java/com/dmarket/service/AdminService.java:595-598 | two "수거 완료" updates both succeed and leave two more refund rows |
| SourceGaps.RefundingTwiceCreditsTwice | src/main/java/com/dmarket/service/AdminService.java:847-855 | refunding the same return twice succeeds and credits twice |
| SourceGaps.RefundWithoutCollection | src/main/java/com/dmarket/service/AdminService.java:847-855 | a merely requested return with no refund row is refunded anyway |
| SourceGaps.PercentAboveHundredOverpays | src/main/java/com/dmarket/service/AdminService.java:848-851 | 150% of 50,000 refunds 75,000 |
| SourceGaps.LargePriceWrapsToNegativeRefund | src/main/java/com/dmarket/service/AdminService.java:851 | 80% of 30,000,000 overflows `int` and gives -18,949,672 |
| SourceGaps.RefusedRequestCanStillBeApproved | src/main/java/com/dmarket/service/AdminService.java:173-176 | a refused request can later be approved, and credits the user |
| SourceGaps.ApprovingTwiceCreditsTwice | src/main/java/com/dmarket/service/AdminService.java:173-178 | approving one request twice credits twice with two entries |
| SourceGaps.ReturnedLineCanBeReopened | src/main/java/com/dmarket/service/AdminService.java:726-729 | a RETURN_COMPLETE line can be set back to ORDER_COMPLETE |
| SourceGaps.StockIgnoresProductId | src/main/java/com/dmarket/service/AdminService.java:444-454 | stock is added even when the product id does not own the option |
| Scenarios.CollectThenRefundEightyPercent | src/main/java/com/dmarket/service/AdminService.java:847-865 | collecting return 7 then refunding 80% of 50,000 credits 40,000. The line is returned, the return refunded, the refund completed, and three events are published |
| Scenarios.ApproveTenThousand | src/main/java/com/dmarket/service/AdminService.java:173-191 | approving 10,000 credits it, records one CHARGE entry, and the text reads "10,000" |
| Scenarios.RefuseTenThousand | src/main/java/com/dmarket/service/AdminService.java:192-199 | refusing leaves balances and history unchanged, and the text reads "10000" |
| Scenarios.SecondQnaReplyConflicts | src/main/java/com/dmarket/service/AdminService.java:508-555 | a second reply is refused with a Conflict until the first is deleted |

## Left out

- Event publishing is modelled only as appending `Event(kind, receiver, content, url)` to the
  store's outbox. Spring's asynchronous delivery and the listener that stores notifications are
  not part of this model; `Notifications.Deliver` stands in for that listener.
- Transactions, locking and concurrency: each method is one atomic step.
- Paging and DTO projection are left out: `getNotices`, `getAllFaqs`, product listing and
  search, the page and count DTOs of `getReturns`, `getOrdersByStatus`, `orderCancle`,
  `getOrderDetailStateCounts`, `getProductInfoWithOption`, `getQnaList`, `getInquiryDetail`,
  `searchUser`, and `getDeliveryAddress`. Those that take a page number behave as modelled in
  `GetMileageRequests` and `GetReturns`: a negative page fails before any lookup. Beyond that and
  the label and status switches, they are query plumbing.
- Product create/update/save, option and image replacement, `deleteOptionByOptionId`,
  `deleteInquiry`, notice, FAQ and user deletion: these are repository CRUD sequences.
- `changeRole`: it issues tokens through a JWT utility that is not part of this model.
- Bodies that are not part of this model, and the assumptions used for them:
  - `ReturnState.fromLabel` is the four-label map, and any other string raises an
    `IllegalArgumentException`.
  - `ReturnState.COLLECT_COMPLETE.label` is "수거 완료".
  - `User.updateMileage` and `updateUserMileageByReturnId` add the amount to the balance of
    the return's owner, with unbounded integers.
  - `updateRefundCompleteByReturnId` completes every refund row of the return.
  - `addMileageHistory` appends one entry.
  - `findAllByProcessing` lists the requests in PROCESSING.
  - `findAllByProcessed` lists requests not in PROCESSING.
  - `getReturnsByReturnState` lists the returns whose state is the given one. `GetReturns` models
    its result as the set of those return ids.
  - `Role` has the four values USER, GM, SM and PM.
  - `findQnaAndReply`, called through `getQnADetail` at the end of `createQnaReply` and
    `deleteQnaReply` (AdminService.java:501-503, :530, :554), finds every existing question,
    answered or not, and also after its reply has been deleted. Its query text is not part of
    this model. The `InquiryRepository` queries use LEFT JOINs to their replies, which makes this
    reading plausible. If the query inner-joined the reply, every `deleteQnaReply` would fail
    with QNA_NOT_FOUND and be rolled back; the model does not cover that reading.
  - `getUserFindByReturnId` (AdminService.java:856) returns the owner of the return's order,
    following return, order line, order, user. It returns null only when that path breaks:
    the order row or the user row is missing. `Store.ReturnOwner` is that path.
  - The JVM's default locale groups digits with ','. `new DecimalFormat("###,###")`
    (AdminService.java:181) takes its grouping separator from that locale.
  - Spring's `PageRequest.of` rejects a negative page index with an `IllegalArgumentException`
    (`IllegalArgument(NegativePage)` here); the page size is a positive constant and never fails.
- `LocalDateTime.now()` is a parameter of `Notifications.Create`. `System.out` logging is
  omitted.
- Null boxing is omitted, except for these cases:
  - stock-request fields may be null;
  - a null price, a null order line, or a null user is `NullDereference`.
- Ids of saved rows are not the database's identity sequence. `Store.FreshKey` picks the
  smallest unused id.
- AdminService.RefundAmount: its own contract states only the `int` range. The arithmetic
  meaning is stated by `AdminService.RefundAmountIsFloorOfPercentage` and the wrap-around by
  `SourceGaps.LargePriceWrapsToNegativeRefund`.

=== FILE: admin_service.dfy ===
/**
 * The administrative order, return, refund, mileage, reply and stock operations. Each call is
 * one transaction: it either returns the new store, or fails with the exception it raised. A
 * failed call is assumed to leave the store as it was, outbox included: the tables roll back on
 * a runtime exception, and events published before the failure are assumed to be dropped too.
 */
module AdminService {
  import opened Wrappers
  import opened Constants
  import opened Entities
  import opened Notifications
  import opened Store
  import opened Ledger
  import JavaInt
  import DecimalFormat
  import Repo = OrderDetailRepository

  /* --- Paging and listings --- */

  /** `pageValidation`: turns a 1-based page number into a 0-based one; zero and negatives pass through. */
  function PageValidation(page: int): (r: int)
    ensures page >= 1 ==> r + 1 == page
    ensures page <= 0 ==> r == page
    ensures r >= 0 <==> page >= 0
  {
    if page > 0 then page - 1 else page
  }

  /** Every 0-based page is reached from exactly its 1-based number, and page 0 aliases page 1. */
  lemma PageValidationReachesEveryPage(n: nat)
    ensures PageValidation(n + 1) == n
    ensures PageValidation(0) == PageValidation(1) == 0
  {
  }

  /**
   * `getMileageRequests`: the page is validated and handed to `PageRequest.of`, which rejects a
   * negative index before the `PROCESSING` / `PROCESSED` switch runs. The listing is the set of
   * matching request ids; which page of it is returned is not modelled.
   */
  function GetMileageRequests(st: Store, status: string, page: int): (r: Result<set<nat>, Error>)
    ensures page < 0 ==> r == Err(IllegalArgument(NegativePage))
    ensures r.Ok? <==> page >= 0 && (status == "PROCESSING" || status == "PROCESSED")
    ensures page >= 0 && r.Err? ==> r.error == BadRequest(InvalidStateParam)
    ensures r.Ok? ==> forall id :: id in r.value <==>
      id in st.mileageReqs && (st.mileageReqs[id].state == Processing <==> status == "PROCESSING")
  {
    if PageValidation(page) < 0 then Err(IllegalArgument(NegativePage))
    else if status == "PROCESSING" then
      Ok(set id | id in st.mileageReqs && st.mileageReqs[id].state == Processing)
    else if status == "PROCESSED" then
      Ok(set id | id in st.mileageReqs && st.mileageReqs[id].state != Processing)
    else
      Err(BadRequest(InvalidStateParam))
  }

  /** The two listings split the requests: every request is in exactly one of them. */
  lemma MileageListingsPartition(st: Store, page: nat)
    ensures GetMileageRequests(st, "PROCESSING", page).value + GetMileageRequests(st, "PROCESSED", page).value
         == st.mileageReqs.Keys
    ensures GetMileageRequests(st, "PROCESSING", page).value !! GetMileageRequests(st, "PROCESSED", page).value
  {
  }

  /**
   * `getReturns`: the page is validated and handed to `PageRequest.of`, which rejects a negative
   * index before the label switch runs. The listing is the set of return ids in the selected state.
   */
  function GetReturns(st: Store, text: string, page: int): (r: Result<set<nat>, Error>)
    ensures page < 0 ==> r == Err(IllegalArgument(NegativePage))
    ensures r.Ok? <==> page >= 0 && ReturnListLabel(text).Ok?
    ensures page >= 0 && r.Err? ==> r.error == NotFound(StateNotFound)
    ensures r.Ok? ==> forall id :: id in r.value <==>
      id in st.returnRequests && st.returnRequests[id].state == ReturnListLabel(text).value
  {
    if PageValidation(page) < 0 then Err(IllegalArgument(NegativePage))
    else
      var state :- ReturnListLabel(text);
      Ok(set id | id in st.returnRequests && st.returnRequests[id].state == state)
  }

  /** A refunded return is never listed, whatever label or page is asked for. */
  lemma RefundedReturnsAreNeverListed(st: Store, text: string, page: int, id: nat)
    requires id in st.returnRequests && st.returnRequests[id].state == RefundComplete
    requires GetReturns(st, text, page).Ok?
    ensures id !in GetReturns(st, text, page).value
  {
    ReturnListLabelAgreesWithFromLabel(text);
  }

  /* --- Admin counts --- */

  /** Reference count: how many of `users` hold `role`. */
  function CountRole(users: seq<User>, role: Role): nat
  {
    if users == [] then 0
    else CountRole(users[..|users| - 1], role) + (if users[|users| - 1].role == role then 1 else 0)
  }

  /** `adminCount`: counts the users holding `role` in one pass. */
  method AdminCount(users: seq<User>, role: Role) returns (count: int)
    ensures count == CountRole(users, role)
    ensures 0 <= count <= |users|
  {
    count := 0;
    var i := 0;
    while i < |users|
      invariant 0 <= i <= |users|
      invariant count == CountRole(users[..i], role) && count <= i
    {
      assert users[..i + 1][..i] == users[..i];
      if users[i].role == role {
        count := count + 1;
      }
      i := i + 1;
    }
    assert users[..i] == users;
  }

  /** The per-role counts add up to the number of users. */
  lemma {:induction false} RoleCountsAddUp(users: seq<User>)
    ensures CountRole(users, RoleUser) + CountRole(users, RoleGm)
          + CountRole(users, RoleSm) + CountRole(users, RolePm) == |users|
  {
    if users != [] {
      RoleCountsAddUp(users[..|users| - 1]);
    }
  }

  /* --- Order lines --- */

  /** The text of a delivery or return notification. */
  function StateMessage(productName: string, text: string): string
  {
    productName + "(이)가 " + text + " 상태입니다."
  }

  /**
   * `updateOrderDetailState(detailId, text)`: the label is checked first; then the line is
   * looked up and overwritten whatever its current state, and a delivery notification goes
   * to the owner of the order.
   */
  function UpdateOrderDetailState(st: Store, detailId: nat, text: string): (r: Result<Store, Error>)
    ensures OrderDetailLabel(text).None? ==> r == Err(NotFound(StateNotFound))
    ensures OrderDetailLabel(text).Some? && detailId !in st.details ==>
      r == Err(IllegalArgument(DetailNotFound))
    ensures r.Ok? <==> OrderDetailLabel(text).Some? && DetailOwner(st, detailId).Some?
    ensures r.Ok? ==>
      && OnlyTouches(st, r.value, {Details, Outbox})
      && r.value.details == Repo.UpdateOrderDetailState(st.details, detailId, OrderDetailLabel(text).value)
      && r.value.details[detailId].state == OrderDetailLabel(text).value
      && r.value.outbox == st.outbox + [Event("delivery", DetailOwner(st, detailId).value,
           StateMessage(ProductName(st, st.details[detailId].productId), text), "/mydkt/orderInfo")]
  {
    var state :- OrderDetailLabel(text).OrFail(NotFound(StateNotFound));
    if detailId !in st.details then Err(IllegalArgument(DetailNotFound))
    else
      var line := st.details[detailId];
      var details := Repo.UpdateOrderDetailState(st.details, detailId, state);
      if line.orderId !in st.orders then Err(IllegalArgument(OrderUserNotFound))
      else
        var userId := st.orders[line.orderId].userId;
        var message := StateMessage(ProductName(st, line.productId), text);
        Ok(st.(details := details,
               outbox := st.outbox + [Event("delivery", userId, message, "/mydkt/orderInfo")]))
  }

  /* --- Returns and refunds --- */

  /**
   * `updateReturnState(returnId, text)`: the collected label inserts a pending refund on every
   * call, before the label is resolved; then the return takes the label's state and a return
   * notification goes to the owner of the order.
   */
  function UpdateReturnState(st: Store, returnId: nat, text: string): (r: Result<Store, Error>)
    ensures returnId !in st.returnRequests ==> r == Err(NotFound(ReturnNotFound))
    ensures returnId in st.returnRequests && ReturnLabel(text).None? ==>
      r == Err(IllegalArgument(UnknownLabel))
    ensures r.Ok? <==> ReturnLabel(text).Some? && ReturnOwner(st, returnId).Some?
    ensures r.Ok? ==>
      && OnlyTouches(st, r.value, {Returns, Refunds, Outbox})
      && r.value.returnRequests.Keys == st.returnRequests.Keys
      && r.value.returnRequests[returnId]
         == st.returnRequests[returnId].(state := ReturnLabel(text).value)
      && (forall k :: k in st.returnRequests && k != returnId ==>
            r.value.returnRequests[k] == st.returnRequests[k])
      && r.value.refunds
         == st.refunds + (if text == CollectCompleteLabel then [Refund(returnId, false)] else [])
      && r.value.outbox == st.outbox + [Event("return", ReturnOwner(st, returnId).value,
           StateMessage(ProductName(st, st.details[st.returnRequests[returnId].orderDetailId].productId), text),
           "/mydkt/orderInfo")]
  {
    if returnId !in st.returnRequests then Err(NotFound(ReturnNotFound))
    else
      var ret := st.returnRequests[returnId];
      var refunds := if text == CollectCompleteLabel then st.refunds + [Refund(returnId, false)] else st.refunds;
      var state :- ReturnLabel(text).OrFail(IllegalArgument(UnknownLabel));
      if ret.orderDetailId !in st.details then Err(NullDereference)
      else
        var line := st.details[ret.orderDetailId];
        if line.orderId !in st.orders then Err(IllegalArgument(OrderUserNotFound))
        else
          var userId := st.orders[line.orderId].userId;
          var message := StateMessage(ProductName(st, line.productId), text);
          Ok(st.(refunds := refunds,
                 returnRequests := st.returnRequests[returnId := ret.(state := state)],
                 outbox := st.outbox + [Event("return", userId, message, "/mydkt/orderInfo")]))
  }

  /** `price * percent / 100` on Java ints: the product wraps at 32 bits, the quotient truncates. */
  function RefundAmount(price: int, percent: int): (amount: int)
    ensures JavaInt.IsInt(amount)
  {
    JavaInt.Div(JavaInt.Mul(price, percent), 100)
  }

  /** Without overflow the refund is the floor of the percentage, and at most 100% of the price. */
  lemma RefundAmountIsFloorOfPercentage(price: int, percent: int)
    requires 0 <= price && 0 <= percent && price * percent <= JavaInt.MaxInt
    ensures RefundAmount(price, percent) == price * percent / 100
    ensures 0 <= RefundAmount(price, percent)
    ensures percent <= 100 ==> RefundAmount(price, percent) <= price
  {
    var p := price * percent;
    assert JavaInt.IsInt(p);
    if percent <= 100 {
      assert p <= price * 100;
    }
  }

  /**
   * `updateRefundCompleteByReturnId`: every refund row of the return becomes completed; the
   * statement's text is not part of this model, this is its assumed meaning.
   */
  function CompleteRefunds(refunds: seq<Refund>, returnId: nat): (r: seq<Refund>)
    ensures |r| == |refunds|
    ensures forall i :: 0 <= i < |r| ==>
      r[i].returnId == refunds[i].returnId
      && r[i].completed == (refunds[i].completed || refunds[i].returnId == returnId)
  {
    seq(|refunds|, i requires 0 <= i < |refunds| =>
      if refunds[i].returnId == returnId then refunds[i].(completed := true) else refunds[i])
  }

  /** Changing line states never changes who owns a return. */
  lemma OwnerIgnoresLineStates(st: Store, returnId: nat, s: OrderDetailState)
    ensures ReturnOwner(st.(details := Repo.UpdateReturnCompleteByReturnId(st.details, st.returnRequests, returnId, s)), returnId)
         == ReturnOwner(st, returnId)
  {
  }

  /**
   * `putRefund(returnId, percent)`: computes the amount from the sale price, marks the line
   * returned, moves the return to refund-complete (with its notification), completes the
   * return's refund rows and credits the amount to the owner with a REFUND history entry.
   */
  function PutRefund(st: Store, returnId: nat, percent: int): (r: Result<Store, Error>)
    ensures Repo.SalePriceByReturnId(st.details, st.returnRequests, returnId).None? ==>
      r == Err(NullDereference)
    ensures r.Ok? <==> ReturnOwner(st, returnId).Some? && ReturnOwner(st, returnId).value in st.users
    ensures r.Ok? ==>
      var line := st.returnRequests[returnId].orderDetailId;
      var u := ReturnOwner(st, returnId).value;
      var amount := RefundAmount(st.details[line].salePrice, percent);
      && OnlyTouches(st, r.value, {Details, Returns, Refunds, Users, History, Outbox})
      && r.value.details == Repo.UpdateReturnCompleteByReturnId(st.details, st.returnRequests, returnId, ReturnComplete)
      && r.value.details[line].state == ReturnComplete
      && r.value.returnRequests == st.returnRequests[returnId := st.returnRequests[returnId].(state := RefundComplete)]
      && r.value.refunds == CompleteRefunds(st.refunds, returnId)
      && Credited(st, r.value, u, amount, Refunded)
      && r.value.outbox == st.outbox + [Event("return", u,
           StateMessage(ProductName(st, st.details[line].productId), RefundCompleteLabel), "/mydkt/orderInfo")]
  {
    match Repo.SalePriceByReturnId(st.details, st.returnRequests, returnId)
    case None => Err(NullDereference)
    case Some(price) =>
      var amount := RefundAmount(price, percent);
      var marked := st.(details := Repo.UpdateReturnCompleteByReturnId(
        st.details, st.returnRequests, returnId, ReturnComplete));
      var returned :- UpdateReturnState(marked, returnId, RefundCompleteLabel);
      var settled := returned.(refunds := CompleteRefunds(returned.refunds, returnId));
      OwnerIgnoresLineStates(st, returnId, ReturnComplete);
      var u := ReturnOwner(st, returnId).value;
      if u !in settled.users then Err(NullDereference)
      else Ok(Credit(settled, u, amount, Refunded))
  }

  /* --- Mileage requests --- */

  function ApprovalMessage(name: string, amount: int): string
  {
    name + "님의 " + DecimalFormat.JavaGrouped(amount) + "마일리지 충전 요청이 승인되었습니다."
  }

  function RefusalMessage(name: string, amount: int): string
  {
    name + "님의 " + DecimalFormat.JavaString(amount) + "마일리지 충전 요청이 거부되었습니다."
  }

  /**
   * `approveMileageReq(id, approve)`: the request is resolved whatever its current state; an
   * approval credits the requested amount with a CHARGE history entry, a refusal moves no
   * mileage; either way the requester is notified.
   */
  function ApproveMileageReq(st: Store, reqId: nat, approve: bool): (r: Result<Store, Error>)
    ensures reqId !in st.mileageReqs ==> r == Err(NotFound(RequestNotFound))
    ensures r.Ok? <==> reqId in st.mileageReqs && st.mileageReqs[reqId].userId in st.users
    ensures r.Err? && reqId in st.mileageReqs ==> r.error == NotFound(UserNotFound)
    ensures r.Ok? ==>
      var req := st.mileageReqs[reqId];
      var u := req.userId;
      && OnlyTouches(st, r.value, {MileageReqs, Users, History, Outbox})
      && r.value.mileageReqs == st.mileageReqs[reqId := req.(state := if approve then Approval else Refusal)]
      && (approve ==> Credited(st, r.value, u, req.amount, Charged))
      && (!approve ==> r.value.users == st.users && r.value.history == st.history)
      && r.value.outbox == st.outbox + [Event("mileage", u,
           if approve then ApprovalMessage(st.users[u].name, req.amount)
           else RefusalMessage(st.users[u].name, req.amount),
           "/mydkt/mileageInfo")]
  {
    if reqId !in st.mileageReqs then Err(NotFound(RequestNotFound))
    else
      var req := st.mileageReqs[reqId];
      var resolved := st.(mileageReqs := st.mileageReqs[reqId := req.(state := if approve then Approval else Refusal)]);
      if req.userId !in st.users then Err(NotFound(UserNotFound))
      else
        var user := st.users[req.userId];
        if approve then
          var credited := Credit(resolved, req.userId, req.amount, Charged);
          Ok(credited.(outbox := credited.outbox +
               [Event("mileage", req.userId, ApprovalMessage(user.name, req.amount), "/mydkt/mileageInfo")]))
        else
          Ok(resolved.(outbox := resolved.outbox +
               [Event("mileage", req.userId, RefusalMessage(user.name, req.amount), "/mydkt/mileageInfo")]))
  }

  /* --- Replies: answer-once flags --- */

  function ReplyMessage(title: string): string
  {
    "[" + title + "]에 대한 답변이 등록되었습니다"
  }

  /** `createQnaReply`: refuses an answered question; otherwise saves the reply and sets the flag. */
  function CreateQnaReply(st: Store, qnaId: nat, contents: string): (r: Result<Store, Error>)
    ensures qnaId !in st.qnas ==> r == Err(NotFound(QnaNotFound))
    ensures qnaId in st.qnas && st.qnas[qnaId].answered ==> r == Err(Conflict(AlreadySavedReply))
    ensures r.Ok? <==> qnaId in st.qnas && !st.qnas[qnaId].answered
    ensures r.Ok? ==>
      var key := FreshKey(st.qnaReplies);
      && OnlyTouches(st, r.value, {Qnas, QnaReplies, Outbox})
      && r.value.qnas == st.qnas[qnaId := st.qnas[qnaId].(answered := true)]
      && key !in st.qnaReplies
      && r.value.qnaReplies == st.qnaReplies[key := QnaReply(qnaId, contents)]
      && r.value.outbox == st.outbox + [Event("qna", st.qnas[qnaId].userId, ReplyMessage(st.qnas[qnaId].title), "/mydkt/qna")]
  {
    if qnaId !in st.qnas then Err(NotFound(QnaNotFound))
    else
      var qna := st.qnas[qnaId];
      if qna.answered then Err(Conflict(AlreadySavedReply))
      else
        var key := FreshKey(st.qnaReplies);
        Ok(st.(qnaReplies := st.qnaReplies[key := QnaReply(qnaId, contents)],
               qnas := st.qnas[qnaId := qna.(answered := true)],
               outbox := st.outbox + [Event("qna", qna.userId, ReplyMessage(qna.title), "/mydkt/qna")]))
  }

  /** `deleteQnaReply`: removes the reply and clears its question's flag. */
  function DeleteQnaReply(st: Store, replyId: nat): (r: Result<Store, Error>)
    ensures replyId !in st.qnaReplies ==> r == Err(NotFound(ReplyNotFound))
    ensures r.Ok? <==> replyId in st.qnaReplies && st.qnaReplies[replyId].qnaId in st.qnas
    ensures r.Err? && replyId in st.qnaReplies ==> r.error == NotFound(QnaNotFound)
    ensures r.Ok? ==>
      var qnaId := st.qnaReplies[replyId].qnaId;
      && OnlyTouches(st, r.value, {Qnas, QnaReplies})
      && r.value.qnaReplies == st.qnaReplies - {replyId}
      && r.value.qnas == st.qnas[qnaId := st.qnas[qnaId].(answered := false)]
  {
    if replyId !in st.qnaReplies then Err(NotFound(ReplyNotFound))
    else
      var qnaId := st.qnaReplies[replyId].qnaId;
      if qnaId !in st.qnas then Err(NotFound(QnaNotFound))
      else
        Ok(st.(qnaReplies := st.qnaReplies - {replyId},
               qnas := st.qnas[qnaId := st.qnas[qnaId].(answered := false)]))
  }

  /** `createInquiryReply`: refuses an answered inquiry; otherwise sets the flag and saves the reply. */
  function CreateInquiryReply(st: Store, inquiryId: nat, contents: string): (r: Result<Store, Error>)
    ensures inquiryId !in st.inquiries ==> r == Err(IllegalArgument(InquiryNotFound))
    ensures inquiryId in st.inquiries && st.inquiries[inquiryId].answered ==>
      r == Err(IllegalArgument(InquiryAlreadyAnswered))
    ensures r.Ok? <==> inquiryId in st.inquiries && !st.inquiries[inquiryId].answered
    ensures r.Ok? ==>
      var key := FreshKey(st.inquiryReplies);
      && OnlyTouches(st, r.value, {Inquiries, InquiryReplies, Outbox})
      && r.value.inquiries == st.inquiries[inquiryId := st.inquiries[inquiryId].(answered := true)]
      && key !in st.inquiryReplies
      && r.value.inquiryReplies == st.inquiryReplies[key := InquiryReply(inquiryId, contents)]
      && r.value.outbox == st.outbox + [Event("inquiry", st.inquiries[inquiryId].userId,
           ReplyMessage(st.inquiries[inquiryId].title), "/mydkt/inquiry")]
  {
    if inquiryId !in st.inquiries then Err(IllegalArgument(InquiryNotFound))
    else
      var inquiry := st.inquiries[inquiryId];
      if inquiry.answered then Err(IllegalArgument(InquiryAlreadyAnswered))
      else
        var key := FreshKey(st.inquiryReplies);
        Ok(st.(inquiries := st.inquiries[inquiryId := inquiry.(answered := true)],
               inquiryReplies := st.inquiryReplies[key := InquiryReply(inquiryId, contents)],
               outbox := st.outbox + [Event("inquiry", inquiry.userId, ReplyMessage(inquiry.title), "/mydkt/inquiry")]))
  }

  /** `deleteInquiryReply`: clears the inquiry's flag and removes the reply. */
  function DeleteInquiryReply(st: Store, replyId: nat): (r: Result<Store, Error>)
    ensures replyId !in st.inquiryReplies ==> r == Err(NotFound(ReplyNotFound))
    ensures r.Ok? <==> replyId in st.inquiryReplies && st.inquiryReplies[replyId].inquiryId in st.inquiries
    ensures r.Err? && replyId in st.inquiryReplies ==> r.error == IllegalArgument(InquiryNotFound)
    ensures r.Ok? ==>
      var inquiryId := st.inquiryReplies[replyId].inquiryId;
      && OnlyTouches(st, r.value, {Inquiries, InquiryReplies})
      && r.value.inquiryReplies == st.inquiryReplies - {replyId}
      && r.value.inquiries == st.inquiries[inquiryId := st.inquiries[inquiryId].(answered := false)]
  {
    if replyId !in st.inquiryReplies then Err(NotFound(ReplyNotFound))
    else
      var inquiryId := st.inquiryReplies[replyId].inquiryId;
      if inquiryId !in st.inquiries then Err(IllegalArgument(InquiryNotFound))
      else
        Ok(st.(inquiries := st.inquiries[inquiryId := st.inquiries[inquiryId].(answered := false)],
               inquiryReplies := st.inquiryReplies - {replyId}))
  }

  /* --- Stock --- */

  /**
   * `addProductStock`: null fields, a non-positive count or an unknown option fail, each
   * wrapped in a runtime exception; otherwise the option's quantity grows by the count
   * (an `int` addition, so it wraps at 32 bits). The product id is checked for null only.
   */
  function AddProductStock(st: Store, productId: Option<nat>, optionId: Option<nat>, addCount: Option<int>)
    : (r: Result<Store, Error>)
    ensures productId.None? || optionId.None? || addCount.None? || addCount.value <= 0 ==>
      r == Err(Runtime(IllegalArgument(InvalidStockInput)))
    ensures r.Ok? <==> productId.Some? && optionId.Some? && addCount.Some? && addCount.value > 0
                       && optionId.value in st.options
    ensures r.Err? ==> r.error.Runtime?
    ensures r.Ok? ==>
      var o := optionId.value;
      && OnlyTouches(st, r.value, {Options})
      && r.value.options.Keys == st.options.Keys
      && r.value.options[o].productId == st.options[o].productId
      && r.value.options[o].quantity == JavaInt.Add(st.options[o].quantity, addCount.value)
      && (forall k :: k in st.options && k != o ==> r.value.options[k] == st.options[k])
  {
    if productId.None? || optionId.None? || addCount.None? || addCount.value <= 0 then
      Err(Runtime(IllegalArgument(InvalidStockInput)))
    else if optionId.value !in st.options then
      Err(Runtime(IllegalArgument(OptionNotFound)))
    else
      var option := st.options[optionId.value];
      Ok(st.(options := st.options[optionId.value := option.(quantity := JavaInt.Add(option.quantity, addCount.value))]))
  }

  /** Below the `int` limit, stock grows by exactly the added count. */
  lemma AddProductStockAddsExactly(st: Store, productId: nat, optionId: nat, addCount: int)
    requires optionId in st.options && addCount > 0
    requires JavaInt.IsInt(st.options[optionId].quantity + addCount)
    ensures AddProductStock(st, Some(productId), Some(optionId), Some(addCount)).Ok?
    ensures AddProductStock(st, Some(productId), Some(optionId), Some(addCount)).value.options[optionId].quantity
         == st.options[optionId].quantity + addCount
  {
  }
}

=== FILE: constants.dfy ===
/**
 * The enumerations the admin workflow works with, the Korean labels administrators send, and
 * the exceptions the service raises.
 */
module Constants {
  import opened Wrappers

  /** Fulfilment state of one order line. */
  datatype OrderDetailState =
    | OrderComplete | DeliveryReady | DeliveryIng | DeliveryComplete
    | OrderCancel | ReturnRequest | ReturnComplete

  /** Collection state of a return. */
  datatype ReturnState = ReturnRequested | CollectIng | CollectComplete | RefundComplete

  datatype MileageReqState = Processing | Approval | Refusal

  /** Reason tag of a mileage history entry; only Charged and Refunded arise in the admin workflow. */
  datatype MileageContents = Charged | Refunded | Used

  datatype Role = RoleUser | RoleGm | RoleSm | RolePm

  /** The service's error codes that this workflow raises. */
  datatype ErrorCode =
    | StateNotFound | ReturnNotFound | RequestNotFound | UserNotFound
    | QnaNotFound | ReplyNotFound | AlreadySavedReply | InvalidStateParam

  /** Why an `IllegalArgumentException` was thrown. */
  datatype Reason =
    | DetailNotFound | OrderUserNotFound | InquiryNotFound | InquiryAlreadyAnswered
    | InvalidStockInput | OptionNotFound | UnknownLabel | NegativePage

  /** The exception that ends a service call (and rolls back its transaction). */
  datatype Error =
    | NotFound(code: ErrorCode)
    | Conflict(code: ErrorCode)
    | BadRequest(code: ErrorCode)
    | IllegalArgument(reason: Reason)
    | NullDereference
    | Runtime(cause: Error)

  /* --- Order detail labels: the switch in AdminService.updateOrderDetailState --- */

  const OrderDetailLabels: set<string> :=
    {"결제 완료", "배송 준비", "배송중", "배송 완료", "주문 취소", "환불/반품신청", "환불/반품완료"}

  function OrderDetailLabel(text: string): (r: Option<OrderDetailState>)
    ensures r.Some? <==> text in OrderDetailLabels
  {
    match text
    case "결제 완료" => Some(OrderComplete)
    case "배송 준비" => Some(DeliveryReady)
    case "배송중" => Some(DeliveryIng)
    case "배송 완료" => Some(DeliveryComplete)
    case "주문 취소" => Some(OrderCancel)
    case "환불/반품신청" => Some(ReturnRequest)
    case "환불/반품완료" => Some(ReturnComplete)
    case _ => None
  }

  /** The text an administrator sends for each state: the inverse of the switch. */
  function OrderDetailStateLabel(s: OrderDetailState): (text: string)
    ensures text in OrderDetailLabels
  {
    match s
    case OrderComplete => "결제 완료"
    case DeliveryReady => "배송 준비"
    case DeliveryIng => "배송중"
    case DeliveryComplete => "배송 완료"
    case OrderCancel => "주문 취소"
    case ReturnRequest => "환불/반품신청"
    case ReturnComplete => "환불/반품완료"
  }

  /** Exactly seven labels are accepted, one per state, and every state has one. */
  lemma OrderDetailLabelsAreABijection()
    ensures |OrderDetailLabels| == 7
    ensures forall s: OrderDetailState :: OrderDetailLabel(OrderDetailStateLabel(s)) == Some(s)
    ensures forall l :: l in OrderDetailLabels ==> OrderDetailStateLabel(OrderDetailLabel(l).value) == l
  {
    assert |OrderDetailLabels| == 7 by {
      var a := {"결제 완료", "배송 준비", "배송중", "배송 완료"};
      var b := {"주문 취소", "환불/반품신청", "환불/반품완료"};
      assert OrderDetailLabels == a + b && a !! b;
    }
  }

  /* --- Return labels: ReturnState.fromLabel, whose body is not part of this model --- */

  const CollectCompleteLabel: string := "수거 완료"
  const RefundCompleteLabel: string := "환불 완료"

  const ReturnLabels: set<string> := {"반품 요청", "수거중", CollectCompleteLabel, RefundCompleteLabel}

  /** `ReturnState.fromLabel`, assumed to map the four labels and to reject any other string. */
  function ReturnLabel(text: string): (r: Option<ReturnState>)
    ensures r.Some? <==> text in ReturnLabels
    ensures text == CollectCompleteLabel ==> r == Some(CollectComplete)
    ensures text == RefundCompleteLabel ==> r == Some(RefundComplete)
  {
    match text
    case "반품 요청" => Some(ReturnRequested)
    case "수거중" => Some(CollectIng)
    case "수거 완료" => Some(CollectComplete)
    case "환불 완료" => Some(RefundComplete)
    case _ => None
  }

  /** The switch in AdminService.getReturns: three labels; refunded returns cannot be listed. */
  function ReturnListLabel(text: string): (r: Result<ReturnState, Error>)
    ensures r.Ok? <==> text == "반품 요청" || text == "수거중" || text == CollectCompleteLabel
    ensures text == "반품 요청" ==> r == Ok(ReturnRequested)
    ensures text == "수거중" ==> r == Ok(CollectIng)
    ensures text == CollectCompleteLabel ==> r == Ok(CollectComplete)
    ensures r.Err? ==> r.error == NotFound(StateNotFound)
  {
    match text
    case "반품 요청" => Ok(ReturnRequested)
    case "수거중" => Ok(CollectIng)
    case "수거 완료" => Ok(CollectComplete)
    case _ => Err(NotFound(StateNotFound))
  }

  /** The listing switch agrees with `fromLabel` except that it refuses the refund-complete text. */
  lemma ReturnListLabelAgreesWithFromLabel(text: string)
    ensures ReturnListLabel(text).Ok? <==> text in ReturnLabels && text != RefundCompleteLabel
    ensures ReturnListLabel(text).Ok? ==> ReturnLabel(text) == Some(ReturnListLabel(text).value)
    ensures ReturnListLabel(text).Ok? ==> ReturnListLabel(text).value != RefundComplete
  {
  }
}

=== FILE: decimal_format.dfy ===
/**
 * Rendering of integers inside notification texts: plain Java string concatenation of an
 * `int`, and `new DecimalFormat("###,###")`, which groups digits in threes. The separator is
 * that of the default locale, taken here to be ','.
 */
module DecimalFormat {

  predicate IsDigit(c: char)
  {
    '0' <= c <= '9'
  }

  predicate AllDigits(s: string)
  {
    forall i :: 0 <= i < |s| ==> IsDigit(s[i])
  }

  function DigitValue(c: char): (d: nat)
    requires IsDigit(c)
    ensures d < 10
  {
    c as int - '0' as int
  }

  function DigitChar(d: nat): (c: char)
    requires d < 10
    ensures IsDigit(c) && DigitValue(c) == d
  {
    ('0' as int + d) as char
  }

  /** Decimal digits of `n` without leading zeros (`"0"` for zero). */
  function Digits(n: nat): (s: string)
    ensures 1 <= |s| && AllDigits(s)
    ensures n > 0 ==> s[0] != '0'
    decreases n
  {
    if n < 10 then [DigitChar(n)] else Digits(n / 10) + [DigitChar(n % 10)]
  }

  /** Reads a digit string back as a number: the reference the renderings are checked against. */
  function Value(s: string): nat
    requires AllDigits(s)
  {
    if s == [] then 0 else Value(s[..|s| - 1]) * 10 + DigitValue(s[|s| - 1])
  }

  lemma {:induction false} ValueOfDigits(n: nat)
    ensures Value(Digits(n)) == n
    decreases n
  {
    if n >= 10 {
      var s := Digits(n);
      assert s[..|s| - 1] == Digits(n / 10);
      ValueOfDigits(n / 10);
    }
  }

  /** How Java's `"" + i` renders an `int`. */
  function JavaString(i: int): (s: string)
  {
    if i < 0 then "-" + Digits(-i) else Digits(i)
  }

  /** The last three digits of a group, zero-padded. */
  function Pad3(k: nat): (s: string)
    requires k < 1000
    ensures |s| == 3 && AllDigits(s)
  {
    [DigitChar(k / 100), DigitChar(k / 10 % 10), DigitChar(k % 10)]
  }

  /** `DecimalFormat("###,###")` of a non-negative value. */
  function Grouped(n: nat): (s: string)
    decreases n
  {
    if n < 1000 then Digits(n) else Grouped(n / 1000) + "," + Pad3(n % 1000)
  }

  /** `DecimalFormat("###,###")` of an `int`: a leading minus sign, then the grouped magnitude. */
  function JavaGrouped(i: int): (s: string)
  {
    if i < 0 then "-" + Grouped(-i) else Grouped(i)
  }

  function StripCommas(s: string): (r: string)
    ensures |r| <= |s|
    ensures forall i :: 0 <= i < |r| ==> r[i] != ','
  {
    if s == [] then [] else (if s[0] == ',' then [] else [s[0]]) + StripCommas(s[1..])
  }

  lemma {:induction false} StripCommasAppend(a: string, b: string)
    ensures StripCommas(a + b) == StripCommas(a) + StripCommas(b)
    decreases |a|
  {
    if a != [] {
      var head := if a[0] == ',' then [] else [a[0]];
      assert (a + b)[0] == a[0] && (a + b)[1..] == a[1..] + b;
      StripCommasAppend(a[1..], b);
      assert StripCommas(a + b) == head + (StripCommas(a[1..]) + StripCommas(b));
    } else {
      assert a + b == b;
    }
  }

  lemma {:induction false} StripCommasOfDigits(s: string)
    requires AllDigits(s)
    ensures StripCommas(s) == s
    decreases |s|
  {
    if s != [] {
      StripCommasOfDigits(s[1..]);
    }
  }

  /** Peeling three decimal digits off `n` one at a time meets `n / 1000` and the digits of `n % 1000`. */
  lemma PeelThreeDigits(n: nat)
    ensures n % 10 == n % 1000 % 10
    ensures n / 10 % 10 == n % 1000 / 10 % 10
    ensures n / 10 / 10 % 10 == n % 1000 / 100
    ensures n / 10 / 10 / 10 == n / 1000
  {
    var q, r := n / 1000, n % 1000;
    var a, b, c := r / 100, r / 10 % 10, r % 10;
    assert r == 100 * a + 10 * b + c;
    assert n / 10 == 100 * q + 10 * a + b && n % 10 == c;
    assert n / 10 / 10 == 10 * q + a && n / 10 % 10 == b;
  }

  /** Three more digits on the right of `Digits(n / 1000)` give `Digits(n)`. */
  lemma DigitsSplit(n: nat)
    requires n >= 1000
    ensures Digits(n) == Digits(n / 1000) + Pad3(n % 1000)
  {
    var q, r := n / 1000, n % 1000;
    var a, b, c := r / 100, r / 10 % 10, r % 10;
    PeelThreeDigits(n);
    calc {
      Digits(n);
      Digits(n / 10) + [DigitChar(c)];
      Digits(n / 10 / 10) + [DigitChar(b)] + [DigitChar(c)];
      Digits(q) + [DigitChar(a)] + [DigitChar(b)] + [DigitChar(c)];
      Digits(q) + Pad3(r);
    }
  }

  /** Grouping only inserts commas: removing them gives back the plain rendering. */
  lemma {:induction false} GroupedStripsToDigits(n: nat)
    ensures StripCommas(Grouped(n)) == Digits(n)
    decreases n
  {
    if n < 1000 {
      StripCommasOfDigits(Digits(n));
    } else {
      GroupedStripsToDigits(n / 1000);
      StripCommasAppend(Grouped(n / 1000) + ",", Pad3(n % 1000));
      StripCommasAppend(Grouped(n / 1000), ",");
      StripCommasOfDigits(Pad3(n % 1000));
      DigitsSplit(n);
    }
  }

  /** The approval text's amount and the refusal text's amount name the same number. */
  lemma GroupingOnlyAddsCommas(i: int)
    ensures StripCommas(JavaGrouped(i)) == JavaString(i)
  {
    if i < 0 {
      StripCommasAppend("-", Grouped(-i));
      GroupedStripsToDigits(-i);
    } else {
      GroupedStripsToDigits(i);
    }
  }

  /** The approved amount of a 10,000-mileage request as it appears in the notification. */
  lemma TenThousandIsGrouped()
    ensures JavaGrouped(10000) == "10,000"
    ensures JavaString(10000) == "10000"
  {
    assert Digits(10) == "10";
    assert Digits(10000) == "10000";
  }
}

=== FILE: entities.dfy ===
/** The persistent records the admin workflow reads and writes (one datatype per entity). */
module Entities {
  import opened Constants

  /** One purchased line of an order, with the sale price recorded at purchase time. */
  datatype OrderDetail = OrderDetail(
    orderId: nat, productId: nat, optionId: nat, salePrice: int, state: OrderDetailState)

  /** The part of an order the workflow needs: who placed it. */
  datatype Order = Order(userId: nat)

  /** A return request for one order line. */
  datatype Return = Return(orderDetailId: nat, state: ReturnState)

  /** The settlement row of a return; `completed` is the `Refund.refundState` flag, false when the row is created. */
  datatype Refund = Refund(returnId: nat, completed: bool)

  /** A user with the cached mileage (store credit) balance. */
  datatype User = User(name: string, mileage: int, role: Role)

  /** A user's request to charge `amount` mileage. */
  datatype MileageReq = MileageReq(userId: nat, amount: int, state: MileageReqState)

  /** One mileage history entry: the balance after the change, and the change itself. */
  datatype Mileage = Mileage(userId: nat, remain: int, change: int, info: MileageContents)

  /** A product question; `answered` is the `Qna.qnaState` flag. */
  datatype Qna = Qna(userId: nat, title: string, answered: bool)

  datatype QnaReply = QnaReply(qnaId: nat, contents: string)

  /** A customer inquiry; `answered` is the `Inquiry.inquiryState` flag. */
  datatype Inquiry = Inquiry(userId: nat, title: string, answered: bool)

  datatype InquiryReply = InquiryReply(inquiryId: nat, contents: string)

  /** A purchasable option of a product and its stock. */
  datatype ProductOption = ProductOption(productId: nat, quantity: int)
}

=== FILE: java_int.dfy ===
/** Java's 32-bit `int` arithmetic, written out over Dafny's unbounded integers. */
module JavaInt {

  const MinInt: int := -0x8000_0000
  const MaxInt: int := 0x7FFF_FFFF
  const Modulus: int := 0x1_0000_0000

  predicate IsInt(x: int)
  {
    MinInt <= x <= MaxInt
  }

  /** Two's-complement wrap-around of an exact result into the `int` range. */
  function Wrap(x: int): (r: int)
    ensures IsInt(r)
    ensures (r - x) % Modulus == 0
    ensures IsInt(x) ==> r == x
  {
    (x - MinInt) % Modulus + MinInt
  }

  /** `a * b` on Java ints. */
  function Mul(a: int, b: int): (r: int)
    ensures IsInt(r)
    ensures IsInt(a * b) ==> r == a * b
  {
    Wrap(a * b)
  }

  /** `a + b` on Java ints. */
  function Add(a: int, b: int): (r: int)
    ensures IsInt(r)
    ensures IsInt(a + b) ==> r == a + b
  {
    Wrap(a + b)
  }

  /** `a / b` on Java ints for a positive divisor: the quotient is truncated toward zero. */
  function Div(a: int, b: int): (r: int)
    requires b > 0
    ensures a >= 0 ==> 0 <= r && r * b <= a < r * b + b
    ensures a < 0 ==> r <= 0 && a <= r * b && r * b - b < a
  {
    if a >= 0 then a / b else -((-a) / b)
  }
}

=== FILE: ledger.dfy ===
/**
 * The mileage (store credit) ledger: the balance cached on the user row and the append-only
 * history of changes, and the consistency between the two.
 */
module Ledger {
  import opened Wrappers
  import opened Constants
  import opened Entities
  import opened Store

  /** The balance recorded by the latest history entry of user `u`, if the user has one. */
  function LastRemain(h: seq<Mileage>, u: nat): Option<int>
  {
    if h == [] then None
    else if h[|h| - 1].userId == u then Some(h[|h| - 1].remain)
    else LastRemain(h[..|h| - 1], u)
  }

  /** The sum of the changes recorded for user `u`. */
  function SumChanges(h: seq<Mileage>, u: nat): int
  {
    if h == [] then 0
    else SumChanges(h[..|h| - 1], u) + (if h[|h| - 1].userId == u then h[|h| - 1].change else 0)
  }

  lemma {:induction false} SumChangesAppend(a: seq<Mileage>, b: seq<Mileage>, u: nat)
    ensures SumChanges(a + b, u) == SumChanges(a, u) + SumChanges(b, u)
    decreases |b|
  {
    if b == [] {
      assert a + b == a;
    } else {
      var b' := b[..|b| - 1];
      assert (a + b)[..|a + b| - 1] == a + b';
      SumChangesAppend(a, b', u);
    }
  }

  /**
   * `b` is `a` after crediting `amount` to user `u`: the balance rose by `amount`, nobody
   * else's row changed, and one history entry recording the new balance was appended.
   */
  predicate Credited(a: Store, b: Store, u: nat, amount: int, info: MileageContents)
  {
    && u in a.users
    && b.users.Keys == a.users.Keys
    && b.users[u] == a.users[u].(mileage := a.users[u].mileage + amount)
    && (forall v :: v in a.users && v != u ==> b.users[v] == a.users[v])
    && b.history == a.history + [Mileage(u, a.users[u].mileage + amount, amount, info)]
  }

  /**
   * Credits `amount` to user `u` and records it: the balance update followed by a history
   * entry whose remaining balance is the updated one (`user.updateMileage` then
   * `addMileageHistory` on approval; the bulk mileage update then `new Mileage(...)` on refund).
   */
  function Credit(st: Store, u: nat, amount: int, info: MileageContents): (r: Store)
    requires u in st.users
    ensures OnlyTouches(st, r, {Users, History})
    ensures Credited(st, r, u, amount, info)
  {
    var user := st.users[u];
    var balance := user.mileage + amount;
    st.(users := st.users[u := user.(mileage := balance)],
        history := st.history + [Mileage(u, balance, amount, info)])
  }

  /** Every user's cached balance equals the balance their latest history entry records. */
  predicate Agrees(st: Store)
  {
    forall u :: u in st.users && LastRemain(st.history, u).Some? ==>
      LastRemain(st.history, u).value == st.users[u].mileage
  }

  /** Each entry's balance is the previous balance of the same user plus the entry's change. */
  predicate Chained(h: seq<Mileage>)
  {
    forall i :: 0 <= i < |h| && LastRemain(h[..i], h[i].userId).Some? ==>
      h[i].remain == LastRemain(h[..i], h[i].userId).value + h[i].change
  }

  predicate Consistent(st: Store)
  {
    Agrees(st) && Chained(st.history)
  }

  /**
   * From `a` to `b` the users are the same, the history only grew, and every user's balance
   * moved by exactly the sum of the changes appended for them.
   */
  predicate BalanceMoves(a: Store, b: Store)
  {
    && b.users.Keys == a.users.Keys
    && |a.history| <= |b.history|
    && b.history[..|a.history|] == a.history
    && forall u :: u in a.users ==>
         b.users[u].mileage == a.users[u].mileage + SumChanges(b.history[|a.history|..], u)
  }

  lemma UnchangedLedgerMovesNothing(a: Store, b: Store)
    requires a.users == b.users && a.history == b.history
    ensures BalanceMoves(a, b)
  {
    assert b.history[|a.history|..] == [];
  }

  lemma CreditMovesBalance(a: Store, b: Store, u: nat, amount: int, info: MileageContents)
    requires Credited(a, b, u, amount, info)
    ensures BalanceMoves(a, b)
  {
    var added := b.history[|a.history|..];
    assert added == [Mileage(u, a.users[u].mileage + amount, amount, info)];
    assert added[..0] == [];
  }

  lemma {:induction false} BalanceMovesComposes(a: Store, b: Store, c: Store)
    requires BalanceMoves(a, b) && BalanceMoves(b, c)
    ensures BalanceMoves(a, c)
  {
    assert c.history[..|a.history|] == c.history[..|b.history|][..|a.history|];
    assert c.history[|a.history|..] == b.history[|a.history|..] + c.history[|b.history|..];
    forall u | u in a.users
      ensures c.users[u].mileage == a.users[u].mileage + SumChanges(c.history[|a.history|..], u)
    {
      SumChangesAppend(b.history[|a.history|..], c.history[|b.history|..], u);
    }
  }

  lemma LastRemainOfCredit(a: Store, b: Store, u: nat, amount: int, info: MileageContents, v: nat)
    requires Credited(a, b, u, amount, info)
    ensures LastRemain(b.history, v)
         == if v == u then Some(a.users[u].mileage + amount) else LastRemain(a.history, v)
  {
    assert b.history[..|b.history| - 1] == a.history;
  }

  /** A credit keeps the cached balances and the history consistent. */
  lemma {:induction false} CreditKeepsConsistent(a: Store, b: Store, u: nat, amount: int, info: MileageContents)
    requires Credited(a, b, u, amount, info)
    requires Consistent(a)
    ensures Consistent(b)
  {
    var h := b.history;
    forall v | v in b.users && LastRemain(h, v).Some?
      ensures LastRemain(h, v).value == b.users[v].mileage
    {
      LastRemainOfCredit(a, b, u, amount, info, v);
    }
    forall i | 0 <= i < |h| && LastRemain(h[..i], h[i].userId).Some?
      ensures h[i].remain == LastRemain(h[..i], h[i].userId).value + h[i].change
    {
      if i < |a.history| {
        assert h[..i] == a.history[..i];
      } else {
        assert h[..i] == a.history;
      }
    }
  }
}

=== FILE: notification.dfy ===
/** Notification records: the event the service publishes and the row built from it. */
module Notifications {

  /** `SendNotificationEvent.of(kind, receiver, content, url)`. */
  datatype Event = Event(kind: string, receiver: nat, content: string, url: string)

  /** A clock reading: seconds and a sub-second nanosecond part. */
  datatype Instant = Instant(seconds: int, nanos: nat)

  /** A stored notification; `id` stays absent until the database assigns one. */
  datatype Notification = Notification(
    id: NotiId, receiver: nat, content: string, url: string, isRead: bool, createdAt: Instant)

  datatype NotiId = Unassigned | Assigned(value: nat)

  /** `Notification.create(event)`, with the clock passed in as `now`. */
  function Create(e: Event, now: Instant): (n: Notification)
    ensures n.receiver == e.receiver && n.content == e.content && n.url == e.url
    ensures !n.isRead
    ensures n.id.Unassigned?
    ensures n.createdAt.seconds == now.seconds && n.createdAt.nanos == 0
  {
    Notification(Unassigned, e.receiver, e.content, e.url, false, Instant(now.seconds, 0))
  }

  /** `updateIsRead(b)`: sets the read flag and nothing else. */
  function UpdateIsRead(n: Notification, b: bool): (r: Notification)
    ensures r.isRead == b
    ensures r.id == n.id && r.receiver == n.receiver && r.content == n.content
    ensures r.url == n.url && r.createdAt == n.createdAt
  {
    n.(isRead := b)
  }

  /** Only the last read flag written counts, and writing the current flag changes nothing. */
  lemma UpdateIsReadOverwrites(n: Notification, b: bool, c: bool)
    ensures UpdateIsRead(UpdateIsRead(n, b), c) == UpdateIsRead(n, c)
    ensures UpdateIsRead(n, n.isRead) == n
  {
  }

  /** The rows a listener would store for a list of published events, all created at `now`. */
  function Deliver(events: seq<Event>, now: Instant): (ns: seq<Notification>)
    ensures |ns| == |events|
    ensures forall i :: 0 <= i < |ns| ==> ns[i] == Create(events[i], now)
  {
    if events == [] then [] else [Create(events[0], now)] + Deliver(events[1..], now)
  }

  /** Every freshly delivered notification is unread and addressed to its event's receiver. */
  lemma DeliveredAreUnread(events: seq<Event>, now: Instant)
    ensures forall i :: 0 <= i < |events| ==>
      !Deliver(events, now)[i].isRead && Deliver(events, now)[i].receiver == events[i].receiver
  {
  }
}

=== FILE: order_detail_repository.dfy ===
/**
 * The JPQL statements of the order-line repository as operations on the order-line table
 * (`details`, keyed by order-line id) and the tables it joins.
 */
module OrderDetailRepository {
  import opened Wrappers
  import opened Constants
  import opened Entities

  /** Reference semantics of `UPDATE OrderDetail od SET od.orderDetailState = s WHERE selected(od.id)`. */
  function UpdateStateWhere(details: map<nat, OrderDetail>, selected: nat -> bool, s: OrderDetailState)
    : (r: map<nat, OrderDetail>)
    ensures r.Keys == details.Keys
  {
    map k | k in details :: if selected(k) then details[k].(state := s) else details[k]
  }

  /** `updateOrderDetailState(id, s)`: only the row with that id gets state `s`. */
  function UpdateOrderDetailState(details: map<nat, OrderDetail>, id: nat, s: OrderDetailState)
    : (r: map<nat, OrderDetail>)
    ensures r.Keys == details.Keys
    ensures id in details ==> r[id] == details[id].(state := s)
    ensures forall k :: k in details && k != id ==> r[k] == details[k]
  {
    if id in details then details[id := details[id].(state := s)] else details
  }

  lemma UpdateOrderDetailStateSelectsById(details: map<nat, OrderDetail>, id: nat, s: OrderDetailState)
    ensures UpdateOrderDetailState(details, id, s) == UpdateStateWhere(details, k => k == id, s)
  {
  }

  /** The order line a return points at, when that line exists. */
  function LineOfReturn(details: map<nat, OrderDetail>, returnRequests: map<nat, Return>, returnId: nat)
    : (r: Option<nat>)
    ensures r.Some? <==> returnId in returnRequests && returnRequests[returnId].orderDetailId in details
    ensures r.Some? ==> r.value == returnRequests[returnId].orderDetailId
  {
    if returnId in returnRequests && returnRequests[returnId].orderDetailId in details
    then Some(returnRequests[returnId].orderDetailId) else None
  }

  /**
   * `updateReturnCompleteByReturnId(returnId, s)`: the line referenced by that return gets
   * state `s`; with no such return (or line) no row changes.
   */
  function UpdateReturnCompleteByReturnId(
    details: map<nat, OrderDetail>, returnRequests: map<nat, Return>, returnId: nat, s: OrderDetailState)
    : (r: map<nat, OrderDetail>)
    ensures r.Keys == details.Keys
    ensures returnId !in returnRequests ==> r == details
    ensures LineOfReturn(details, returnRequests, returnId).Some? ==>
      var line := returnRequests[returnId].orderDetailId;
      r[line] == details[line].(state := s) &&
      forall k :: k in details && k != line ==> r[k] == details[k]
    ensures LineOfReturn(details, returnRequests, returnId).None? ==> r == details
  {
    match LineOfReturn(details, returnRequests, returnId)
    case Some(line) => UpdateOrderDetailState(details, line, s)
    case None => details
  }

  lemma UpdateReturnCompleteSelectsTheReturnedLine(
    details: map<nat, OrderDetail>, returnRequests: map<nat, Return>, returnId: nat, s: OrderDetailState)
    ensures UpdateReturnCompleteByReturnId(details, returnRequests, returnId, s)
         == UpdateStateWhere(details, k => returnId in returnRequests && returnRequests[returnId].orderDetailId == k, s)
  {
  }

  /** `getOrderDetailSalePriceFindByReturnId`: the sale price joined through the return, or null. */
  function SalePriceByReturnId(details: map<nat, OrderDetail>, returnRequests: map<nat, Return>, returnId: nat)
    : (r: Option<int>)
    ensures r.Some? <==> returnId in returnRequests && returnRequests[returnId].orderDetailId in details
    ensures r.Some? ==> r.value == details[returnRequests[returnId].orderDetailId].salePrice
  {
    match LineOfReturn(details, returnRequests, returnId)
    case Some(line) => Some(details[line].salePrice)
    case None => None
  }

  /** Whether line `k` is in state `s` and belongs to an order placed by the existing user `userId`. */
  predicate Counted(
    details: map<nat, OrderDetail>, orders: map<nat, Order>, users: map<nat, User>,
    userId: nat, s: OrderDetailState, k: nat)
  {
    && k in details
    && details[k].orderId in orders
    && orders[details[k].orderId].userId == userId
    && userId in users
    && details[k].state == s
  }

  /** The rows the count query's joins and filters keep. */
  function Matching(
    details: map<nat, OrderDetail>, orders: map<nat, Order>, users: map<nat, User>,
    userId: nat, s: OrderDetailState)
    : (r: set<nat>)
    ensures forall k :: k in r <==> Counted(details, orders, users, userId, s, k)
  {
    set k | k in details && Counted(details, orders, users, userId, s, k)
  }

  /** `countOrderDetailByUserIdAndOrderDetailState`: the GROUP BY yields no row, hence null, for zero matches. */
  function CountByUserAndState(
    details: map<nat, OrderDetail>, orders: map<nat, Order>, users: map<nat, User>,
    userId: nat, s: OrderDetailState)
    : (r: Option<nat>)
    ensures r.None? <==> forall k :: k in details ==> !Counted(details, orders, users, userId, s, k)
    ensures r.Some? ==> 1 <= r.value && r.value == |Matching(details, orders, users, userId, s)|
  {
    var n := |Matching(details, orders, users, userId, s)|;
    if n == 0 then None else Some(n)
  }

  /** `safeCountOrderDetailByUserIdAndOrderDetailState`: the count, with null read as zero. */
  function SafeCount(
    details: map<nat, OrderDetail>, orders: map<nat, Order>, users: map<nat, User>,
    userId: nat, s: OrderDetailState)
    : (r: nat)
    ensures r == |Matching(details, orders, users, userId, s)|
    ensures r == 0 <==> CountByUserAndState(details, orders, users, userId, s).None?
  {
    match CountByUserAndState(details, orders, users, userId, s)
    case Some(n) => n
    case None => 0
  }

  /** Moving one of the user's lines into state `s` raises that user's count for `s` by exactly one. */
  lemma UpdateRaisesCountByOne(
    details: map<nat, OrderDetail>, orders: map<nat, Order>, users: map<nat, User>,
    userId: nat, id: nat, s: OrderDetailState)
    requires id in details && details[id].orderId in orders
    requires orders[details[id].orderId].userId == userId && userId in users
    requires details[id].state != s
    ensures SafeCount(UpdateOrderDetailState(details, id, s), orders, users, userId, s)
         == SafeCount(details, orders, users, userId, s) + 1
  {
    var after := UpdateOrderDetailState(details, id, s);
    var before := Matching(details, orders, users, userId, s);
    assert Matching(after, orders, users, userId, s) == before + {id};
    assert id !in before;
  }
}

=== FILE: scenarios.dfy ===
/** Concrete runs of the workflow on small stores. */
module Scenarios {
  import opened Wrappers
  import opened Constants
  import opened Entities
  import opened Notifications
  import opened Store
  import opened AdminService
  import DecimalFormat

  /** Line 42 (sale price 50,000) of order 1, placed by user 3, with return 7 just requested. */
  function ReturnStore(): Store
  {
    Store(
      details := map[42 := OrderDetail(1, 5, 9, 50000, ReturnRequest)],
      orders := map[1 := Order(3)],
      productNames := map[5 := "셔츠"],
      returnRequests := map[7 := Return(42, ReturnRequested)],
      refunds := [],
      users := map[3 := User("민수", 1000, RoleUser)],
      mileageReqs := map[],
      history := [],
      qnas := map[],
      qnaReplies := map[],
      inquiries := map[],
      inquiryReplies := map[],
      options := map[],
      outbox := [])
  }

  /** Collecting return 7 and refunding 80% credits 40,000 and completes everything. */
  lemma CollectThenRefundEightyPercent()
    ensures
      var s0 := ReturnStore();
      var s1 := UpdateReturnState(s0, 7, "수거중");
      && s1.Ok?
      && var s2 := UpdateReturnState(s1.value, 7, CollectCompleteLabel);
      && s2.Ok?
      && s2.value.refunds == [Refund(7, false)]
      && var s3 := PutRefund(s2.value, 7, 80);
      && s3.Ok?
      && s3.value.users[3].mileage == 41000
      && s3.value.history == [Mileage(3, 41000, 40000, Refunded)]
      && s3.value.refunds == [Refund(7, true)]
      && s3.value.returnRequests[7].state == RefundComplete
      && s3.value.details[42].state == ReturnComplete
      && |s3.value.outbox| == 3
      && s3.value.outbox[2].kind == "return" && s3.value.outbox[2].receiver == 3
  {
    var s0 := ReturnStore();
    var s1 := UpdateReturnState(s0, 7, "수거중").value;
    var s2 := UpdateReturnState(s1, 7, CollectCompleteLabel).value;
    RefundAmountIsFloorOfPercentage(50000, 80);
    assert RefundAmount(50000, 80) == 40000;
  }

  /** User 3 asks for 10,000 mileage in request 3. */
  function ChargeStore(): Store
  {
    ReturnStore().(mileageReqs := map[3 := MileageReq(3, 10000, Processing)])
  }

  /** Approving request 3 credits 10,000 and tells the user the amount with a thousands separator. */
  lemma ApproveTenThousand()
    ensures
      var r := ApproveMileageReq(ChargeStore(), 3, true);
      && r.Ok?
      && r.value.mileageReqs[3].state == Approval
      && r.value.users[3].mileage == 11000
      && r.value.history == [Mileage(3, 11000, 10000, Charged)]
      && r.value.outbox == [Event("mileage", 3, "민수님의 10,000마일리지 충전 요청이 승인되었습니다.", "/mydkt/mileageInfo")]
  {
    ApprovalTextGroupsThousands();
  }

  lemma ApprovalTextGroupsThousands()
    ensures ApprovalMessage("민수", 10000) == "민수님의 10,000마일리지 충전 요청이 승인되었습니다."
  {
    DecimalFormat.TenThousandIsGrouped();
    var g := DecimalFormat.JavaGrouped(10000);
    assert "민수" + "님의 " + g == "민수님의 10,000";
  }

  /** Refusing request 3 moves no mileage and prints the amount without grouping. */
  lemma RefuseTenThousand()
    ensures
      var r := ApproveMileageReq(ChargeStore(), 3, false);
      && r.Ok?
      && r.value.mileageReqs[3].state == Refusal
      && r.value.users == ChargeStore().users
      && r.value.history == []
      && r.value.outbox == [Event("mileage", 3, "민수님의 10000마일리지 충전 요청이 거부되었습니다.", "/mydkt/mileageInfo")]
  {
    RefusalTextIsPlain();
  }

  lemma RefusalTextIsPlain()
    ensures RefusalMessage("민수", 10000) == "민수님의 10000마일리지 충전 요청이 거부되었습니다."
  {
    DecimalFormat.TenThousandIsGrouped();
    var p := DecimalFormat.JavaString(10000);
    assert "민수" + "님의 " + p == "민수님의 10000";
  }

  /** A second reply to the same question is refused until the first is deleted. */
  lemma SecondQnaReplyConflicts()
    ensures
      var s0 := ReturnStore().(qnas := map[11 := Qna(3, "사이즈 문의", false)]);
      var s1 := CreateQnaReply(s0, 11, "M 사이즈입니다");
      && s1.Ok?
      && CreateQnaReply(s1.value, 11, "다시 답변") == Err(Conflict(AlreadySavedReply))
      && var s2 := DeleteQnaReply(s1.value, FreshKey(s0.qnaReplies));
      && s2.Ok?
      && CreateQnaReply(s2.value, 11, "다시 답변").Ok?
  {
  }
}

=== FILE: source_gaps.dfy ===
/**
 * Behaviour the admin service has because it lacks a guard: each lemma exhibits one missing
 * check on the model of the code as written.
 */
module SourceGaps {
  import opened Wrappers
  import opened Constants
  import opened Entities
  import opened Store
  import opened AdminService
  import JavaInt

  /** No duplicate-refund guard: marking a return collected twice leaves two refund rows. */
  lemma CollectingTwiceCreatesTwoRefunds(st: Store, returnId: nat)
    requires ReturnOwner(st, returnId).Some?
    ensures UpdateReturnState(st, returnId, CollectCompleteLabel).Ok?
    ensures
      var once := UpdateReturnState(st, returnId, CollectCompleteLabel).value;
      && UpdateReturnState(once, returnId, CollectCompleteLabel).Ok?
      && CountRefunds(UpdateReturnState(once, returnId, CollectCompleteLabel).value.refunds, returnId)
         == CountRefunds(st.refunds, returnId) + 2
  {
    var once := UpdateReturnState(st, returnId, CollectCompleteLabel).value;
    var twice := UpdateReturnState(once, returnId, CollectCompleteLabel).value;
    CountRefundsAppend(st.refunds, Refund(returnId, false), returnId);
    CountRefundsAppend(once.refunds, Refund(returnId, false), returnId);
  }

  /** No "already refunded" guard: a second refund of the same return credits the user again. */
  lemma RefundingTwiceCreditsTwice(st: Store, returnId: nat, percent: int)
    requires ReturnOwner(st, returnId).Some? && ReturnOwner(st, returnId).value in st.users
    ensures PutRefund(st, returnId, percent).Ok?
    ensures
      var u := ReturnOwner(st, returnId).value;
      var amount := RefundAmount(st.details[st.returnRequests[returnId].orderDetailId].salePrice, percent);
      var once := PutRefund(st, returnId, percent).value;
      && PutRefund(once, returnId, percent).Ok?
      && PutRefund(once, returnId, percent).value.users[u].mileage == st.users[u].mileage + 2 * amount
      && |PutRefund(once, returnId, percent).value.history| == |st.history| + 2
  {
    var once := PutRefund(st, returnId, percent).value;
    var line := st.returnRequests[returnId].orderDetailId;
    assert once.details[line].salePrice == st.details[line].salePrice;
    assert ReturnOwner(once, returnId) == ReturnOwner(st, returnId);
  }

  /** No collected-state precondition: a return never collected, with no refund row, is still refunded. */
  lemma RefundWithoutCollection(st: Store, returnId: nat, percent: int)
    requires ReturnOwner(st, returnId).Some? && ReturnOwner(st, returnId).value in st.users
    requires st.returnRequests[returnId].state == ReturnRequested
    requires CountRefunds(st.refunds, returnId) == 0
    requires 0 < st.details[st.returnRequests[returnId].orderDetailId].salePrice <= 1_000_000
    requires 1 <= percent <= 100
    ensures PutRefund(st, returnId, percent).Ok?
    ensures
      var u := ReturnOwner(st, returnId).value;
      PutRefund(st, returnId, percent).value.users[u].mileage >= st.users[u].mileage
  {
    var price := st.details[st.returnRequests[returnId].orderDetailId].salePrice;
    assert price * percent <= 1_000_000 * 100;
    RefundAmountIsFloorOfPercentage(price, percent);
  }

  /** The percentage is not range-checked: 150% refunds more than the sale price. */
  lemma PercentAboveHundredOverpays()
    ensures RefundAmount(50000, 150) == 75000
  {
  }

  /** `price * percent` is an `int` product: a large enough price wraps to a negative refund. */
  lemma LargePriceWrapsToNegativeRefund()
    ensures RefundAmount(30_000_000, 80) == -18_949_672
  {
    assert JavaInt.Mul(30_000_000, 80) == 2_400_000_000 - 0x1_0000_0000;
  }

  /** No processing-state check: a refused request can later be approved and credits the user. */
  lemma RefusedRequestCanStillBeApproved(st: Store, reqId: nat)
    requires reqId in st.mileageReqs && st.mileageReqs[reqId].userId in st.users
    ensures ApproveMileageReq(st, reqId, false).Ok?
    ensures
      var refused := ApproveMileageReq(st, reqId, false).value;
      var u := st.mileageReqs[reqId].userId;
      && refused.mileageReqs[reqId].state == Refusal
      && ApproveMileageReq(refused, reqId, true).Ok?
      && ApproveMileageReq(refused, reqId, true).value.users[u].mileage
         == st.users[u].mileage + st.mileageReqs[reqId].amount
  {
  }

  /** No processing-state check: approving the same request twice credits it twice. */
  lemma ApprovingTwiceCreditsTwice(st: Store, reqId: nat)
    requires reqId in st.mileageReqs && st.mileageReqs[reqId].userId in st.users
    ensures ApproveMileageReq(st, reqId, true).Ok?
    ensures
      var once := ApproveMileageReq(st, reqId, true).value;
      var u := st.mileageReqs[reqId].userId;
      && ApproveMileageReq(once, reqId, true).Ok?
      && ApproveMileageReq(once, reqId, true).value.users[u].mileage
         == st.users[u].mileage + 2 * st.mileageReqs[reqId].amount
      && |ApproveMileageReq(once, reqId, true).value.history| == |st.history| + 2
  {
  }

  /** No transition graph: a returned line can be put back to "결제 완료". */
  lemma ReturnedLineCanBeReopened(st: Store, detailId: nat)
    requires DetailOwner(st, detailId).Some?
    requires st.details[detailId].state == ReturnComplete
    ensures UpdateOrderDetailState(st, detailId, "결제 완료").Ok?
    ensures UpdateOrderDetailState(st, detailId, "결제 완료").value.details[detailId].state == OrderComplete
  {
  }

  /** The product id of a stock request is never matched against the option's product. */
  lemma StockIgnoresProductId(st: Store, productId: nat, optionId: nat, addCount: int)
    requires optionId in st.options && st.options[optionId].productId != productId
    requires addCount > 0
    ensures AddProductStock(st, Some(productId), Some(optionId), Some(addCount)).Ok?
  {
  }
}

=== FILE: store.dfy ===
/**
 * The abstract database the admin workflow runs against: one map per table, keyed by id, and
 * the append-only refund table, mileage history and published-event list.
 */
module Store {
  import opened Wrappers
  import opened Constants
  import opened Entities
  import opened Notifications

  datatype Store = Store(
    details: map<nat, OrderDetail>,
    orders: map<nat, Order>,
    productNames: map<nat, string>,
    returnRequests: map<nat, Return>,
    refunds: seq<Refund>,
    users: map<nat, User>,
    mileageReqs: map<nat, MileageReq>,
    history: seq<Mileage>,
    qnas: map<nat, Qna>,
    qnaReplies: map<nat, QnaReply>,
    inquiries: map<nat, Inquiry>,
    inquiryReplies: map<nat, InquiryReply>,
    options: map<nat, ProductOption>,
    outbox: seq<Event>)

  /** Names of the tables, for stating which ones a step may change. */
  datatype Table =
    | Details | Orders | ProductNames | Returns | Refunds | Users | MileageReqs | History
    | Qnas | QnaReplies | Inquiries | InquiryReplies | Options | Outbox

  /** Every table outside `touched` is equal in `a` and `b`. */
  predicate OnlyTouches(a: Store, b: Store, touched: set<Table>)
  {
    && (Details !in touched ==> a.details == b.details)
    && (Orders !in touched ==> a.orders == b.orders)
    && (ProductNames !in touched ==> a.productNames == b.productNames)
    && (Returns !in touched ==> a.returnRequests == b.returnRequests)
    && (Refunds !in touched ==> a.refunds == b.refunds)
    && (Users !in touched ==> a.users == b.users)
    && (MileageReqs !in touched ==> a.mileageReqs == b.mileageReqs)
    && (History !in touched ==> a.history == b.history)
    && (Qnas !in touched ==> a.qnas == b.qnas)
    && (QnaReplies !in touched ==> a.qnaReplies == b.qnaReplies)
    && (Inquiries !in touched ==> a.inquiries == b.inquiries)
    && (InquiryReplies !in touched ==> a.inquiryReplies == b.inquiryReplies)
    && (Options !in touched ==> a.options == b.options)
    && (Outbox !in touched ==> a.outbox == b.outbox)
  }

  /** `findProductName`, rendered as Java string concatenation renders it (`"null"` when absent). */
  function ProductName(st: Store, productId: nat): string
  {
    if productId in st.productNames then st.productNames[productId] else "null"
  }

  /** The user who placed the order that an order line belongs to. */
  function DetailOwner(st: Store, detailId: nat): (r: Option<nat>)
    ensures r.Some? <==> detailId in st.details && st.details[detailId].orderId in st.orders
  {
    if detailId in st.details && st.details[detailId].orderId in st.orders
    then Some(st.orders[st.details[detailId].orderId].userId)
    else None
  }

  /** The user behind a return: return, then order line, then order. */
  function ReturnOwner(st: Store, returnId: nat): (r: Option<nat>)
    ensures r.Some? <==> returnId in st.returnRequests && DetailOwner(st, st.returnRequests[returnId].orderDetailId).Some?
  {
    if returnId in st.returnRequests then DetailOwner(st, st.returnRequests[returnId].orderDetailId) else None
  }

  /** Number of refund rows that belong to return `returnId`. */
  function CountRefunds(refunds: seq<Refund>, returnId: nat): (n: nat)
    ensures n <= |refunds|
  {
    if refunds == [] then 0
    else CountRefunds(refunds[..|refunds| - 1], returnId)
         + (if refunds[|refunds| - 1].returnId == returnId then 1 else 0)
  }

  lemma CountRefundsAppend(refunds: seq<Refund>, x: Refund, returnId: nat)
    ensures CountRefunds(refunds + [x], returnId)
            == CountRefunds(refunds, returnId) + (if x.returnId == returnId then 1 else 0)
  {
    assert (refunds + [x])[..|refunds|] == refunds;
  }

  /** The ids below `n`. */
  function Below(n: nat): (r: set<nat>)
    ensures |r| == n
    ensures forall j: nat :: j in r <==> j < n
  {
    if n == 0 then {} else Below(n - 1) + {n - 1}
  }

  /** A set holding every id below `n` has at least `n` elements. */
  lemma RangeFits(ks: set<nat>, n: nat)
    requires forall j: nat :: j < n ==> j in ks
    ensures n <= |ks|
  {
    var rest := ks - Below(n);
    assert ks == Below(n) + rest && Below(n) * rest == {};
  }

  function FirstAbsent(ks: set<nat>, i: nat): (k: nat)
    requires forall j: nat :: j < i ==> j in ks
    ensures i <= k && k !in ks
    ensures forall j: nat :: j < k ==> j in ks
    decreases |ks| - i
  {
    if i !in ks then i
    else
      RangeFits(ks, i + 1);
      FirstAbsent(ks, i + 1)
  }

  /**
   * The id the database hands a newly saved row: some id not yet used. The smallest unused
   * one is chosen; nothing in the workflow depends on which.
   */
  function FreshKey<V>(m: map<nat, V>): (k: nat)
    ensures k !in m
    ensures k <= |m|
  {
    RangeFits(m.Keys, FirstAbsent(m.Keys, 0));
    FirstAbsent(m.Keys, 0)
  }
}

=== FILE: workflow.dfy ===
/**
 * The admin commands as one step relation, and the properties every step keeps: the ledger
 * stays consistent, balances move only by recorded changes, histories and notifications are
 * append-only, refunds are never reopened, and only a reply sets an answered flag.
 */
module Workflow {
  import opened Wrappers
  import opened Constants
  import opened Entities
  import opened Store
  import opened Ledger
  import opened AdminService

  datatype Command =
    | SetOrderDetailState(detailId: nat, text: string)
    | SetReturnState(returnId: nat, text: string)
    | IssueRefund(returnId: nat, percent: int)
    | ResolveMileageRequest(reqId: nat, approve: bool)
    | ReplyQna(qnaId: nat, contents: string)
    | RemoveQnaReply(qnaReplyId: nat)
    | ReplyInquiry(inquiryId: nat, contents: string)
    | RemoveInquiryReply(inquiryReplyId: nat)
    | AddStock(productId: Option<nat>, optionId: Option<nat>, addCount: Option<int>)

  function Step(st: Store, c: Command): Result<Store, Error>
  {
    match c
    case SetOrderDetailState(id, text) => UpdateOrderDetailState(st, id, text)
    case SetReturnState(id, text) => UpdateReturnState(st, id, text)
    case IssueRefund(id, percent) => PutRefund(st, id, percent)
    case ResolveMileageRequest(id, approve) => ApproveMileageReq(st, id, approve)
    case ReplyQna(id, contents) => CreateQnaReply(st, id, contents)
    case RemoveQnaReply(id) => DeleteQnaReply(st, id)
    case ReplyInquiry(id, contents) => CreateInquiryReply(st, id, contents)
    case RemoveInquiryReply(id) => DeleteInquiryReply(st, id)
    case AddStock(p, o, n) => AddProductStock(st, p, o, n)
  }

  /** One transaction: a failed command is rolled back and leaves the store as it was. */
  function Apply(st: Store, c: Command): Store
  {
    Outcome(st, Step(st, c))
  }

  function Outcome(st: Store, r: Result<Store, Error>): Store
  {
    match r
    case Ok(next) => next
    case Err(_) => st
  }

  /** A sequence of commands, each its own transaction. */
  function Run(st: Store, cs: seq<Command>): Store
    decreases |cs|
  {
    if cs == [] then st else Run(Apply(st, cs[0]), cs[1..])
  }

  /** A step either leaves the ledger alone or credits one user. */
  ghost predicate LedgerStep(a: Store, b: Store)
  {
    (a.users == b.users && a.history == b.history)
    || exists u: nat, amount: int, info: MileageContents :: Credited(a, b, u, amount, info)
  }

  lemma UntouchedLedgerStep(a: Store, r: Result<Store, Error>, touched: set<Table>)
    requires r.Ok? ==> OnlyTouches(a, r.value, touched)
    requires Users !in touched && History !in touched
    ensures LedgerStep(a, Outcome(a, r))
  {
  }

  lemma RefundLedgerStep(st: Store, id: nat, percent: int)
    ensures LedgerStep(st, Outcome(st, PutRefund(st, id, percent)))
  {
    if PutRefund(st, id, percent).Ok? {
      var line := st.returnRequests[id].orderDetailId;
      var u := ReturnOwner(st, id).value;
      assert Credited(st, PutRefund(st, id, percent).value, u,
                      RefundAmount(st.details[line].salePrice, percent), Refunded);
    }
  }

  lemma MileageLedgerStep(st: Store, id: nat, approve: bool)
    ensures LedgerStep(st, Outcome(st, ApproveMileageReq(st, id, approve)))
  {
    var r := ApproveMileageReq(st, id, approve);
    if r.Ok? && approve {
      var req := st.mileageReqs[id];
      assert Credited(st, r.value, req.userId, req.amount, Charged);
    }
  }

  lemma StepIsLedgerStep(st: Store, c: Command)
    ensures LedgerStep(st, Apply(st, c))
  {
    match c
    case SetOrderDetailState(id, text) =>
      UntouchedLedgerStep(st, UpdateOrderDetailState(st, id, text), {Details, Outbox});
    case SetReturnState(id, text) =>
      UntouchedLedgerStep(st, UpdateReturnState(st, id, text), {Returns, Refunds, Outbox});
    case IssueRefund(id, percent) =>
      RefundLedgerStep(st, id, percent);
    case ResolveMileageRequest(id, approve) =>
      MileageLedgerStep(st, id, approve);
    case ReplyQna(id, contents) =>
      UntouchedLedgerStep(st, CreateQnaReply(st, id, contents), {Qnas, QnaReplies, Outbox});
    case RemoveQnaReply(id) =>
      UntouchedLedgerStep(st, DeleteQnaReply(st, id), {Qnas, QnaReplies});
    case ReplyInquiry(id, contents) =>
      UntouchedLedgerStep(st, CreateInquiryReply(st, id, contents), {Inquiries, InquiryReplies, Outbox});
    case RemoveInquiryReply(id) =>
      UntouchedLedgerStep(st, DeleteInquiryReply(st, id), {Inquiries, InquiryReplies});
    case AddStock(p, o, n) =>
      UntouchedLedgerStep(st, AddProductStock(st, p, o, n), {Options});
  }

  /** Every step keeps each cached balance equal to its user's latest history entry. */
  lemma StepKeepsLedgerConsistent(st: Store, c: Command)
    requires Consistent(st)
    ensures Consistent(Apply(st, c))
  {
    var next := Apply(st, c);
    StepIsLedgerStep(st, c);
    if !(st.users == next.users && st.history == next.history) {
      var u: nat, amount: int, info: MileageContents :| Credited(st, next, u, amount, info);
      CreditKeepsConsistent(st, next, u, amount, info);
    }
  }

  /** Every step moves each balance by exactly the changes it appends to the history. */
  lemma StepMovesBalanceByHistory(st: Store, c: Command)
    ensures BalanceMoves(st, Apply(st, c))
  {
    var next := Apply(st, c);
    StepIsLedgerStep(st, c);
    if st.users == next.users && st.history == next.history {
      UnchangedLedgerMovesNothing(st, next);
    } else {
      var u: nat, amount: int, info: MileageContents :| Credited(st, next, u, amount, info);
      CreditMovesBalance(st, next, u, amount, info);
    }
  }

  /** Consistency of the ledger holds after any sequence of commands. */
  lemma {:induction false} RunKeepsLedgerConsistent(st: Store, cs: seq<Command>)
    requires Consistent(st)
    ensures Consistent(Run(st, cs))
    decreases |cs|
  {
    if cs != [] {
      StepKeepsLedgerConsistent(st, cs[0]);
      RunKeepsLedgerConsistent(Apply(st, cs[0]), cs[1..]);
    }
  }

  /** Over any sequence of commands, balances move by exactly the history appended meanwhile. */
  lemma {:induction false} RunMovesBalanceByHistory(st: Store, cs: seq<Command>)
    ensures BalanceMoves(st, Run(st, cs))
    decreases |cs|
  {
    if cs == [] {
      UnchangedLedgerMovesNothing(st, st);
    } else {
      var next := Apply(st, cs[0]);
      StepMovesBalanceByHistory(st, cs[0]);
      RunMovesBalanceByHistory(next, cs[1..]);
      BalanceMovesComposes(st, next, Run(next, cs[1..]));
    }
  }

  /** Refund rows are only ever added, keep their return, and once completed stay completed. */
  predicate RefundsGrow(a: seq<Refund>, b: seq<Refund>)
  {
    |a| <= |b| &&
    forall i :: 0 <= i < |a| ==> b[i].returnId == a[i].returnId && (a[i].completed ==> b[i].completed)
  }

  /** History entries and published notifications are only ever appended. */
  predicate AppendOnly(a: Store, b: Store)
  {
    && |a.history| <= |b.history| && b.history[..|a.history|] == a.history
    && |a.outbox| <= |b.outbox| && b.outbox[..|a.outbox|] == a.outbox
    && RefundsGrow(a.refunds, b.refunds)
  }

  lemma UntouchedIsAppendOnly(a: Store, r: Result<Store, Error>, touched: set<Table>)
    requires r.Ok? ==> OnlyTouches(a, r.value, touched)
    requires History !in touched && Outbox !in touched && Refunds !in touched
    ensures AppendOnly(a, Outcome(a, r))
  {
  }

  /** Adding a suffix to both sequences keeps the earlier ones as a prefix. */
  lemma Extends<T>(a: seq<T>, b: seq<T>, extra: seq<T>)
    requires b == a + extra
    ensures |a| <= |b| && b[..|a|] == a
  {
  }

  /** A step that only appends notifications, and possibly refund rows, is append-only. */
  lemma NotifyingIsAppendOnly(a: Store, r: Result<Store, Error>)
    requires r.Ok? ==> a.history == r.value.history
    requires r.Ok? ==> |a.outbox| <= |r.value.outbox| && r.value.outbox[..|a.outbox|] == a.outbox
    requires r.Ok? ==> |a.refunds| <= |r.value.refunds| && r.value.refunds[..|a.refunds|] == a.refunds
    ensures AppendOnly(a, Outcome(a, r))
  {
  }

  lemma RefundIsAppendOnly(st: Store, id: nat, percent: int)
    ensures AppendOnly(st, Outcome(st, PutRefund(st, id, percent)))
  {
    var r := PutRefund(st, id, percent);
    if r.Ok? {
      Extends(st.history, r.value.history, r.value.history[|st.history|..]);
      assert r.value.outbox[..|st.outbox|] == st.outbox;
    }
  }

  lemma MileageIsAppendOnly(st: Store, id: nat, approve: bool)
    ensures AppendOnly(st, Outcome(st, ApproveMileageReq(st, id, approve)))
  {
    var r := ApproveMileageReq(st, id, approve);
    if r.Ok? {
      Extends(st.history, r.value.history, r.value.history[|st.history|..]);
      Extends(st.outbox, r.value.outbox, r.value.outbox[|st.outbox|..]);
    }
  }

  lemma OrderDetailIsAppendOnly(st: Store, id: nat, text: string)
    ensures AppendOnly(st, Outcome(st, UpdateOrderDetailState(st, id, text)))
  {
    var r := UpdateOrderDetailState(st, id, text);
    if r.Ok? {
      Extends(st.outbox, r.value.outbox, r.value.outbox[|st.outbox|..]);
    }
    NotifyingIsAppendOnly(st, r);
  }

  lemma ReturnIsAppendOnly(st: Store, id: nat, text: string)
    ensures AppendOnly(st, Outcome(st, UpdateReturnState(st, id, text)))
  {
    var r := UpdateReturnState(st, id, text);
    if r.Ok? {
      Extends(st.outbox, r.value.outbox, r.value.outbox[|st.outbox|..]);
      Extends(st.refunds, r.value.refunds, r.value.refunds[|st.refunds|..]);
    }
    NotifyingIsAppendOnly(st, r);
  }

  lemma QnaReplyIsAppendOnly(st: Store, id: nat, contents: string)
    ensures AppendOnly(st, Outcome(st, CreateQnaReply(st, id, contents)))
  {
    var r := CreateQnaReply(st, id, contents);
    if r.Ok? {
      Extends(st.outbox, r.value.outbox, r.value.outbox[|st.outbox|..]);
    }
    NotifyingIsAppendOnly(st, r);
  }

  lemma InquiryReplyIsAppendOnly(st: Store, id: nat, contents: string)
    ensures AppendOnly(st, Outcome(st, CreateInquiryReply(st, id, contents)))
  {
    var r := CreateInquiryReply(st, id, contents);
    if r.Ok? {
      Extends(st.outbox, r.value.outbox, r.value.outbox[|st.outbox|..]);
    }
    NotifyingIsAppendOnly(st, r);
  }

  lemma StepIsAppendOnly(st: Store, c: Command)
    ensures AppendOnly(st, Apply(st, c))
  {
    match c
    case SetOrderDetailState(id, text) =>
      OrderDetailIsAppendOnly(st, id, text);
    case SetReturnState(id, text) =>
      ReturnIsAppendOnly(st, id, text);
    case IssueRefund(id, percent) =>
      RefundIsAppendOnly(st, id, percent);
    case ResolveMileageRequest(id, approve) =>
      MileageIsAppendOnly(st, id, approve);
    case ReplyQna(id, contents) =>
      QnaReplyIsAppendOnly(st, id, contents);
    case RemoveQnaReply(id) =>
      UntouchedIsAppendOnly(st, DeleteQnaReply(st, id), {Qnas, QnaReplies});
    case ReplyInquiry(id, contents) =>
      InquiryReplyIsAppendOnly(st, id, contents);
    case RemoveInquiryReply(id) =>
      UntouchedIsAppendOnly(st, DeleteInquiryReply(st, id), {Inquiries, InquiryReplies});
    case AddStock(p, o, n) =>
      UntouchedIsAppendOnly(st, AddProductStock(st, p, o, n), {Options});
  }

  lemma CountRefundsIgnoresCompletion(refunds: seq<Refund>, returnId: nat, r: nat)
    ensures CountRefunds(CompleteRefunds(refunds, returnId), r) == CountRefunds(refunds, r)
  {
    if refunds != [] {
      var n := |refunds| - 1;
      assert CompleteRefunds(refunds, returnId)[..n] == CompleteRefunds(refunds[..n], returnId);
      CountRefundsIgnoresCompletion(refunds[..n], returnId, r);
    }
  }

  lemma ReturnStateRefundCount(st: Store, id: nat, text: string, returnId: nat)
    requires UpdateReturnState(st, id, text).Ok?
    ensures CountRefunds(UpdateReturnState(st, id, text).value.refunds, returnId)
         == CountRefunds(st.refunds, returnId)
            + (if id == returnId && text == CollectCompleteLabel then 1 else 0)
  {
    if text == CollectCompleteLabel {
      CountRefundsAppend(st.refunds, Refund(id, false), returnId);
    }
  }

  lemma RefundRefundCount(st: Store, id: nat, percent: int, returnId: nat)
    requires PutRefund(st, id, percent).Ok?
    ensures CountRefunds(PutRefund(st, id, percent).value.refunds, returnId) == CountRefunds(st.refunds, returnId)
  {
    CountRefundsIgnoresCompletion(st.refunds, id, returnId);
  }

  lemma KeepsRefunds(a: Store, r: Result<Store, Error>, touched: set<Table>)
    requires r.Ok? ==> OnlyTouches(a, r.value, touched)
    requires Refunds !in touched
    ensures Outcome(a, r).refunds == a.refunds
  {
  }

  lemma MileageKeepsRefunds(st: Store, id: nat, approve: bool)
    ensures Outcome(st, ApproveMileageReq(st, id, approve)).refunds == st.refunds
  {
    KeepsRefunds(st, ApproveMileageReq(st, id, approve), {MileageReqs, Users, History, Outbox});
  }

  lemma OtherCommandKeepsRefunds(st: Store, c: Command)
    requires !c.SetReturnState? && !c.IssueRefund?
    ensures Apply(st, c).refunds == st.refunds
  {
    match c
    case SetOrderDetailState(id, text) =>
      KeepsRefunds(st, UpdateOrderDetailState(st, id, text), {Details, Outbox});
    case ResolveMileageRequest(id, approve) =>
      MileageKeepsRefunds(st, id, approve);
    case ReplyQna(id, contents) =>
      KeepsRefunds(st, CreateQnaReply(st, id, contents), {Qnas, QnaReplies, Outbox});
    case RemoveQnaReply(id) =>
      KeepsRefunds(st, DeleteQnaReply(st, id), {Qnas, QnaReplies});
    case ReplyInquiry(id, contents) =>
      KeepsRefunds(st, CreateInquiryReply(st, id, contents), {Inquiries, InquiryReplies, Outbox});
    case RemoveInquiryReply(id) =>
      KeepsRefunds(st, DeleteInquiryReply(st, id), {Inquiries, InquiryReplies});
    case AddStock(p, o, n) =>
      KeepsRefunds(st, AddProductStock(st, p, o, n), {Options});
  }

  /** Only setting a return to "수거 완료" creates a refund row for it, and then exactly one. */
  lemma OnlyCollectionCreatesRefunds(st: Store, c: Command, returnId: nat)
    requires Step(st, c).Ok?
    ensures CountRefunds(Apply(st, c).refunds, returnId)
         == CountRefunds(st.refunds, returnId)
            + (if c == SetReturnState(returnId, CollectCompleteLabel) then 1 else 0)
  {
    match c
    case SetReturnState(id, text) =>
      ReturnStateRefundCount(st, id, text, returnId);
    case IssueRefund(id, percent) =>
      RefundRefundCount(st, id, percent, returnId);
    case _ =>
      OtherCommandKeepsRefunds(st, c);
  }

  /** The question `qnaId` was open before and is answered after. */
  predicate NewlyAnsweredQna(a: Store, b: Store, qnaId: nat)
  {
    && qnaId in a.qnas && !a.qnas[qnaId].answered
    && qnaId in b.qnas && b.qnas[qnaId].answered
  }

  /** The inquiry `inquiryId` was open before and is answered after. */
  predicate NewlyAnsweredInquiry(a: Store, b: Store, inquiryId: nat)
  {
    && inquiryId in a.inquiries && !a.inquiries[inquiryId].answered
    && inquiryId in b.inquiries && b.inquiries[inquiryId].answered
  }

  lemma KeepsQnas(a: Store, r: Result<Store, Error>, touched: set<Table>, qnaId: nat)
    requires r.Ok? ==> OnlyTouches(a, r.value, touched)
    requires Qnas !in touched
    ensures !NewlyAnsweredQna(a, Outcome(a, r), qnaId)
  {
  }

  lemma KeepsInquiries(a: Store, r: Result<Store, Error>, touched: set<Table>, inquiryId: nat)
    requires r.Ok? ==> OnlyTouches(a, r.value, touched)
    requires Inquiries !in touched
    ensures !NewlyAnsweredInquiry(a, Outcome(a, r), inquiryId)
  {
  }

  lemma QnaReplyAnswersItsQuestion(st: Store, id: nat, contents: string, qnaId: nat)
    requires NewlyAnsweredQna(st, Outcome(st, CreateQnaReply(st, id, contents)), qnaId)
    ensures id == qnaId
  {
  }

  lemma QnaReplyRemovalAnswersNothing(st: Store, id: nat, qnaId: nat)
    ensures !NewlyAnsweredQna(st, Outcome(st, DeleteQnaReply(st, id)), qnaId)
  {
  }

  lemma InquiryReplyAnswersItsInquiry(st: Store, id: nat, contents: string, inquiryId: nat)
    requires NewlyAnsweredInquiry(st, Outcome(st, CreateInquiryReply(st, id, contents)), inquiryId)
    ensures id == inquiryId
  {
  }

  lemma InquiryReplyRemovalAnswersNothing(st: Store, id: nat, inquiryId: nat)
    ensures !NewlyAnsweredInquiry(st, Outcome(st, DeleteInquiryReply(st, id)), inquiryId)
  {
  }

  /** Commands that act on the question and inquiry boards. */
  predicate IsBoardCommand(c: Command)
  {
    c.ReplyQna? || c.RemoveQnaReply? || c.ReplyInquiry? || c.RemoveInquiryReply?
  }

  lemma KeepsBoards(a: Store, r: Result<Store, Error>, touched: set<Table>)
    requires r.Ok? ==> OnlyTouches(a, r.value, touched)
    requires Qnas !in touched && Inquiries !in touched
    ensures Outcome(a, r).qnas == a.qnas && Outcome(a, r).inquiries == a.inquiries
  {
  }

  lemma RefundKeepsBoards(st: Store, id: nat, percent: int)
    ensures Outcome(st, PutRefund(st, id, percent)).qnas == st.qnas
    ensures Outcome(st, PutRefund(st, id, percent)).inquiries == st.inquiries
  {
    KeepsBoards(st, PutRefund(st, id, percent), {Details, Returns, Refunds, Users, History, Outbox});
  }

  lemma MileageKeepsBoards(st: Store, id: nat, approve: bool)
    ensures Outcome(st, ApproveMileageReq(st, id, approve)).qnas == st.qnas
    ensures Outcome(st, ApproveMileageReq(st, id, approve)).inquiries == st.inquiries
  {
    KeepsBoards(st, ApproveMileageReq(st, id, approve), {MileageReqs, Users, History, Outbox});
  }

  lemma OtherCommandKeepsBoards(st: Store, c: Command)
    requires !IsBoardCommand(c)
    ensures Apply(st, c).qnas == st.qnas && Apply(st, c).inquiries == st.inquiries
  {
    match c
    case SetOrderDetailState(id, text) =>
      KeepsBoards(st, UpdateOrderDetailState(st, id, text), {Details, Outbox});
    case SetReturnState(id, text) =>
      KeepsBoards(st, UpdateReturnState(st, id, text), {Returns, Refunds, Outbox});
    case IssueRefund(id, percent) =>
      RefundKeepsBoards(st, id, percent);
    case ResolveMileageRequest(id, approve) =>
      MileageKeepsBoards(st, id, approve);
    case AddStock(p, o, n) =>
      KeepsBoards(st, AddProductStock(st, p, o, n), {Options});
  }

  lemma BoardCommandAnswersItsQuestion(st: Store, c: Command, qnaId: nat)
    requires IsBoardCommand(c)
    requires NewlyAnsweredQna(st, Apply(st, c), qnaId)
    ensures c.ReplyQna? && c.qnaId == qnaId
  {
    match c
    case ReplyQna(id, contents) =>
      QnaReplyAnswersItsQuestion(st, id, contents, qnaId);
    case RemoveQnaReply(id) =>
      QnaReplyRemovalAnswersNothing(st, id, qnaId);
    case ReplyInquiry(id, contents) =>
      KeepsQnas(st, CreateInquiryReply(st, id, contents), {Inquiries, InquiryReplies, Outbox}, qnaId);
    case RemoveInquiryReply(id) =>
      KeepsQnas(st, DeleteInquiryReply(st, id), {Inquiries, InquiryReplies}, qnaId);
  }

  lemma BoardCommandAnswersItsInquiry(st: Store, c: Command, inquiryId: nat)
    requires IsBoardCommand(c)
    requires NewlyAnsweredInquiry(st, Apply(st, c), inquiryId)
    ensures c.ReplyInquiry? && c.inquiryId == inquiryId
  {
    match c
    case ReplyQna(id, contents) =>
      KeepsInquiries(st, CreateQnaReply(st, id, contents), {Qnas, QnaReplies, Outbox}, inquiryId);
    case RemoveQnaReply(id) =>
      KeepsInquiries(st, DeleteQnaReply(st, id), {Qnas, QnaReplies}, inquiryId);
    case ReplyInquiry(id, contents) =>
      InquiryReplyAnswersItsInquiry(st, id, contents, inquiryId);
    case RemoveInquiryReply(id) =>
      InquiryReplyRemovalAnswersNothing(st, id, inquiryId);
  }

  /** An unanswered question becomes answered only through a reply to that question. */
  lemma OnlyAReplyAnswersAQuestion(st: Store, c: Command, qnaId: nat)
    requires NewlyAnsweredQna(st, Apply(st, c), qnaId)
    ensures c.ReplyQna? && c.qnaId == qnaId
  {
    if IsBoardCommand(c) {
      BoardCommandAnswersItsQuestion(st, c, qnaId);
    } else {
      OtherCommandKeepsBoards(st, c);
    }
  }

  /** An unanswered inquiry becomes answered only through a reply to that inquiry. */
  lemma OnlyAReplyAnswersAnInquiry(st: Store, c: Command, inquiryId: nat)
    requires NewlyAnsweredInquiry(st, Apply(st, c), inquiryId)
    ensures c.ReplyInquiry? && c.inquiryId == inquiryId
  {
    if IsBoardCommand(c) {
      BoardCommandAnswersItsInquiry(st, c, inquiryId);
    } else {
      OtherCommandKeepsBoards(st, c);
    }
  }
}

=== FILE: wrappers.dfy ===
/** Optional values and success/failure results, usable with `:-`. */
module Wrappers {

  /** A value that may be absent: the model's stand-in for a Java `null`. */
  datatype Option<+T> = None | Some(value: T) {

    /** Turns an absent value into the given failure. */
    function OrFail<E>(error: E): (r: Result<T, E>)
      ensures Some? <==> r.Ok?
      ensures Some? ==> r.value == value
      ensures None? ==> r.error == error
    {
      match this
      case Some(v) => Ok(v)
      case None => Err(error)
    }
  }

  /** The outcome of a service call: a value, or the exception it raised. */
  datatype Result<+T, +E> = Ok(value: T) | Err(error: E) {

    predicate IsFailure()
    {
      Err?
    }

    function PropagateFailure<U>(): Result<U, E>
      requires Err?
    {
      Err(error)
    }

    function Extract(): T
      requires Ok?
    {
      value
    }
  }
}
